=== FILE: README.md ===
# Currency data generator, modelled in Dafny

`GenerateCurrencyData` is the JDK build tool that turns the currency property
table (`currency.properties`) into the packed lookup tables that
`java.util.Currency` reads at run time. This project models the table-building
core of that tool as pure Dafny functions over immutable data, and proves what
the tables mean.

The modules follow the tool's structure:

- `Results` holds `Option`, `Result` and the error kinds. Every check of the
  tool throws and ends the run, so every stage returns a `Result` and the first
  failure propagates.
- `Bits` models Java's `|` and `&` bit by bit on naturals, and on 32-bit ints
  through their unsigned view.
- `Text` models `String.indexOf`, `substring`, `Integer.parseInt` on ASCII text,
  and the dash-joined code list.
- `Layout` holds the packing constants and a main-table entry as a tagged value
  (`Entry`). `Pack` stores an entry as an int and `Decode` reads its fields back.
  `MasksReadFields` shows these fields are what the run-time masks select.
- `Registry` models the lookup strings (`all`, `minor0`, `minor1`, `minor3`,
  `minorUndefined`) and three functions over them:
  - `checkCurrencyCode`;
  - `getDefaultFractionDigits`;
  - `getNumericCode`.
- `SpecialCases` models `makeSpecialCaseEntry`: the rows of the parallel
  special-case arrays, and the memo that gives each distinct currency-info
  string a single row.
- `MainTable` models `buildMainAndSpecialCaseTables`. It visits the 676
  country codes AA..ZZ in order and threads the special-case tables through the
  visit.
- `MainTableAsWritten` builds the main table's ints with the simple-path guard
  exactly as the source writes it, and relates that build to `MainTable`'s.
- `OtherCurrencies` models `buildOtherTables`: a loop over the seven-character
  records of `all`.
- `Generator` models the body of `main`: `readInput`, then the main build,
  then the other-currencies build, stopping at the first failure.

## Model

| member | source | states |
|---|---|---|
| Layout.Pack | jdk/make/src/classes/build/tools/generatecurrencydata/GenerateCurrencyData.java:86-108 | A packed entry fits in 18 bits. It has bit 7 clear exactly for an invalid or simple entry. It equals 0x7F exactly for an invalid country and 0x80 exactly for a country without currency. |
| Layout.PackAsWritten | jdk/make/src/classes/build/tools/generatecurrencydata/GenerateCurrencyData.java:217-225 | The source's OR of the mask, the letter offset, `digits << 5` and `numeric << 8`, and its OR of 0x80 with index + 1, equal the sum of the fields, because the fields occupy disjoint bits. |
| Layout.DecodePack | jdk/make/src/classes/build/tools/generatecurrencydata/GenerateCurrencyData.java:86-108 | Reading a packed entry back gives the entry, for every valid entry. `Decode` reads the fields that `Layout.MasksReadFields` shows the masks 0x1F, 0x60, 0x80 and 0x3FF00 select. |
| Layout.Decode | jdk/make/src/classes/build/tools/generatecurrencydata/GenerateCurrencyData.java:86-108 | A simple reading has bit 7 clear, is not 0x7F, and has a final-letter offset below 32, digits below 4 and a numeric code below 1024. A special reading has bit 7 set, is not 0x80, and has an index in 0..30. Its partner is `Layout.DecodePack`, which reads every valid entry back. |
| Layout.MasksReadFields | jdk/make/src/classes/build/tools/generatecurrencydata/GenerateCurrencyData.java:90-108 | Java's `&` of a 32-bit int with each mask constant selects one field. The final-character and index masks give the low five bits. The digits mask gives the digits shifted by 5, the type mask gives bit 7, and the numeric-code mask gives the numeric code shifted by 8. The type mask is the OR of the simple and special masks. |
| Layout.PackFields | jdk/make/src/classes/build/tools/generatecurrencydata/GenerateCurrencyData.java:92-108 | Masking a simple entry recovers its final-letter offset, digits and numeric code. Masking a special entry recovers its index + 1 in the low five bits. |
| Layout.PackInjective | jdk/make/src/classes/build/tools/generatecurrencydata/GenerateCurrencyData.java:86-108 | Two valid entries pack to the same int if and only if they are equal, so the four kinds never collide. |
| Layout.DecodeFields | jdk/make/src/classes/build/tools/generatecurrencydata/GenerateCurrencyData.java:86-108 | Each decoded kind determines the masked bits of the int. A simple entry has bit 7 clear, and a special entry has bit 7 set with its index in the low five bits. |
| Layout.SimpleEntryAsWritten | jdk/make/src/classes/build/tools/generatecurrencydata/GenerateCurrencyData.java:217-220 | The Java int OR chain for a simple entry, with an 'A'..'Z' final character, is `Pack` of that simple entry. |
| Layout.NonLetterFinalCharMisread | jdk/make/src/classes/build/tools/generatecurrencydata/GenerateCurrencyData.java:217-220 | With final character '5' the OR chain gives -12 for any digits and numeric code, and -12 decodes as special case 19. |
| Registry.CheckCurrencyCode | jdk/make/src/classes/build/tools/generatecurrencydata/GenerateCurrencyData.java:329-342 | A code of the wrong length, one with a character outside 'A'..'Z' other than XB5, and one not listed each fail with their own error. A code that passes is returned unchanged and starts with two letters. |
| Registry.CheckCurrencyCodeListed | jdk/make/src/classes/build/tools/generatecurrencydata/GenerateCurrencyData.java:329-342 | The check passes if and only if the code is well formed and occurs as a substring of `all`. A well-formed code that does not occur fails as not listed. |
| Registry.DefaultFractionDigits | jdk/make/src/classes/build/tools/generatecurrencydata/GenerateCurrencyData.java:233-245 | The default digits are always in -1..3. Its partner `Registry.DefaultFractionDigitsOrder` pins which minor-unit string gives each value. |
| Registry.DefaultFractionDigitsOrder | jdk/make/src/classes/build/tools/generatecurrencydata/GenerateCurrencyData.java:233-245 | The result is 0, 1, 3, -1 or 2 exactly as `minor0`, `minor1`, `minor3` and `minorUndefined` are consulted in that order, with 2 for a code in none of them. |
| Registry.NumericCode | jdk/make/src/classes/build/tools/generatecurrencydata/GenerateCurrencyData.java:247-251 | A successful read is in -99..999. Its partners are `Registry.NumericCodeAt` (where the digits come from) and `Registry.NumericCodeOfRecord` (a record's own digits). |
| Registry.NumericCodeAt | jdk/make/src/classes/build/tools/generatecurrencydata/GenerateCurrencyData.java:247-251 | For the first occurrence p of a code in `all`, the numeric code is `parseInt` of the characters p+3..p+5. It is an index error when those run past the end. |
| Registry.NumericCodeOfRecord | jdk/make/src/classes/build/tools/generatecurrencydata/GenerateCurrencyData.java:247-251 | In a well-formed `all`, whose records may include XB5, every record's digits parse to a number in 0..999. For a three-letter code that no earlier record has, the numeric code is that record's own digits. XB5 is excepted, as `Registry.LegacyCodeReadEarly` shows. |
| Registry.LegacyCodeReadEarly | jdk/make/src/classes/build/tools/generatecurrencydata/GenerateCurrencyData.java:247-251 | In the well-formed `all` `AXB512-XB5000`, `indexOf` finds XB5 inside the record AXB512. The three characters read after it are `12-`, so the lookup fails with a number-format error, although XB5's own record holds 000. |
| Text.IndexOfFirst | jdk/make/src/classes/build/tools/generatecurrencydata/GenerateCurrencyData.java:248 | `indexOf` returns the leftmost occurrence, and returns -1 exactly when the pattern does not occur. |
| Text.IndexOf | jdk/make/src/classes/build/tools/generatecurrencydata/GenerateCurrencyData.java:248 | `indexOf` returns -1 or a position where the pattern fits inside the string. Its partner `Text.IndexOfFirst` shows it is the leftmost occurrence. |
| Text.ContainsListed | jdk/make/src/classes/build/tools/generatecurrencydata/GenerateCurrencyData.java:234-240 | `indexOf(code) != -1` holds exactly when the code occurs somewhere in the string. |
| Text.ParseInt | jdk/make/src/classes/build/tools/generatecurrencydata/GenerateCurrencyData.java:250 | A successful parse is a 32-bit int of non-empty text. A failure is a number-format error naming the text. Its partners `Text.ParseDigits` and `Text.ParseThreeDigits` give the value of digit strings. |
| Text.ParseDigits | jdk/make/src/classes/build/tools/generatecurrencydata/GenerateCurrencyData.java:250 | One to nine ASCII digits parse to their decimal value. |
| Text.ParseThreeDigits | jdk/make/src/classes/build/tools/generatecurrencydata/GenerateCurrencyData.java:308-309 | Parsing the zero-padded three-digit text of n in 0..999 gives back n. |
| Text.ParseThreeCharsRange | jdk/make/src/classes/build/tools/generatecurrencydata/GenerateCurrencyData.java:249-250 | Any three characters that parse give a value in -99..999. |
| SpecialCases.MakeRecord | jdk/make/src/classes/build/tools/generatecurrencydata/GenerateCurrencyData.java:263-293 | Bare-code and transition rows, both success conditions, and the error cases, as detailed below. |
| SpecialCases.TransitionRoundTrip | jdk/make/src/classes/build/tools/generatecurrencydata/GenerateCurrencyData.java:273-282 | A transition row's old code, the timestamp text, and its new code, joined with ';', give back the info string. |
| SpecialCases.TransitionFromParts | jdk/make/src/classes/build/tools/generatecurrencydata/GenerateCurrencyData.java:272-293 | `OLD;text;NEW`, with two codes that pass the check and have numeric codes and with a parsable text, makes exactly the transition row from OLD to NEW at that time. |
| SpecialCases.IndexInFirst | jdk/make/src/classes/build/tools/generatecurrencydata/GenerateCurrencyData.java:256-259 | The memo lookup finds a string's first position, and misses exactly the strings that are not keys. |
| SpecialCases.Intern | jdk/make/src/classes/build/tools/generatecurrencydata/GenerateCurrencyData.java:255-262 | Memo, capacity, append and invariant behaviour, as detailed below. |
| SpecialCases.InternKeepsWf | jdk/make/src/classes/build/tools/generatecurrencydata/GenerateCurrencyData.java:295-296 | A new row is appended at index = old count under a fresh key. Keys stay distinct and every key's row is the one it makes. |
| SpecialCases.InternIdempotent | jdk/make/src/classes/build/tools/generatecurrencydata/GenerateCurrencyData.java:256-259 | Interning the same string again returns the same index and leaves the tables unchanged. |
| MainTable.CountryIndexCode | jdk/make/src/classes/build/tools/generatecurrencydata/GenerateCurrencyData.java:190-194 | The slot `first * 26 + second` of a two-letter code, visited in order, is that code again. |
| MainTable.SimpleEntry | jdk/make/src/classes/build/tools/generatecurrencydata/GenerateCurrencyData.java:208-220 | The simple entry exists exactly when the code passes the check, its digits lie in 0..3 and its numeric code in 0..999. It then holds those values. Digits out of range is an error of its own. |
| MainTable.EntryFor | jdk/make/src/classes/build/tools/generatecurrencydata/GenerateCurrencyData.java:195-226 | One country's entry is valid and means what its property value says. The special-case tables only grow, and keep their invariant. |
| MainTable.BuildRows | jdk/make/src/classes/build/tools/generatecurrencydata/GenerateCurrencyData.java:190-230 | The slots k..675 get one valid entry each, in order, each meaning what its country's value says. |
| MainTable.BuildMain | jdk/make/src/classes/build/tools/generatecurrencydata/GenerateCurrencyData.java:189-231 | A built table has 676 entries, one per country, each meaning what its value says, plus well-formed special-case tables. The keys of the special-case memo are exactly the distinct values that need a row. |
| MainTable.SpecialRowsInOrder | jdk/make/src/classes/build/tools/generatecurrencydata/GenerateCurrencyData.java:189-231 | A successful build's special-case keys are the values needing a row, in the order the countries AA..ZZ first meet them. Each value is appended when first met, as `makeSpecialCaseEntry` numbers a new value with the current count. With the pointers of `MainTable.SpecialSlot`, this fixes every special entry. |
| MainTable.SpecialCount | jdk/make/src/classes/build/tools/generatecurrencydata/GenerateCurrencyData.java:260-296 | A built table has exactly one special-case row per distinct value that needs one, so `specialCaseCount` is the number of such values. |
| MainTable.MainInts | jdk/make/src/classes/build/tools/generatecurrencydata/GenerateCurrencyData.java:228 | The int array has one int per entry, each the packing of that entry and within 18 bits. Its partner `MainTable.MainIntsDecode` decodes every int back to its entry. |
| MainTable.MainTableReadsBack | jdk/make/src/classes/build/tools/generatecurrencydata/GenerateCurrencyData.java:196-228 | Decoding a country's int with the masks agrees with the property table, as detailed below. |
| MainTable.SimpleSlot | jdk/make/src/classes/build/tools/generatecurrencydata/GenerateCurrencyData.java:205-220 | A slot is neither 0x7F nor has bit 7 set exactly when its value has the simple form. Its low five bits are then the final letter's offset. |
| MainTable.SpecialSlot | jdk/make/src/classes/build/tools/generatecurrencydata/GenerateCurrencyData.java:221-226 | A value not of the simple form gives an entry with bit 7 set. Its low five bits point, with delta 1, at the row made from exactly that value. |
| MainTable.SharedSpecialRow | jdk/make/src/classes/build/tools/generatecurrencydata/GenerateCurrencyData.java:222-225 | Two countries with the same non-simple value get the same special entry. |
| MainTable.BuildMainSucceedsIff | jdk/make/src/classes/build/tools/generatecurrencydata/GenerateCurrencyData.java:189-231 | The main table is built exactly when every country's value is acceptable and at most 30 distinct values need a special-case row. |
| MainTable.BareCodeSlot | jdk/make/src/classes/build/tools/generatecurrencydata/GenerateCurrencyData.java:263-271 | A three-character value not of the simple form gets a special row with that code, no successor, and a `Long.MAX_VALUE` cut-over. |
| MainTable.LegacyCodeAsWritten | jdk/make/src/classes/build/tools/generatecurrencydata/GenerateCurrencyData.java:205-220 | The source's guard sends XB5 for country XB to the simple path, whose packed int reads back as special case 19. |
| MainTable.LegacyCodeIsSpecial | jdk/make/src/classes/build/tools/generatecurrencydata/GenerateCurrencyData.java:205-226 | With the corrected guard, XB5 for country XB is a special entry pointing at a bare XB5 row. |
| MainTable.IsSimpleInfoAsWritten | jdk/make/src/classes/build/tools/generatecurrencydata/GenerateCurrencyData.java:205-207 | The source's guard holds only for three-character values. The model's guard `IsSimpleInfo` holds exactly when the source's guard holds and the third character is a letter. |
| MainTableAsWritten.SimpleIntAsWritten | jdk/make/src/classes/build/tools/generatecurrencydata/GenerateCurrencyData.java:208-220 | The source's simple path, with no check on the third character. With a letter there, it succeeds, fails and packs exactly as `MainTable.SimpleEntry`. With any other character, success means the code is XB5 and the int is -12. |
| MainTableAsWritten.EntryIntFor | jdk/make/src/classes/build/tools/generatecurrencydata/GenerateCurrencyData.java:195-226 | One country's int with the source's guard. An absent country gets 0x7F and an empty value 0x80. A prefix match gets the simple-path int and adds no row. Any other value gets bit 7 with its row index plus 1 in the tables it returns. The keys grow by exactly that value, and rows made by `MakeRecord` stay so. |
| MainTableAsWritten.BuildIntsAsWritten | jdk/make/src/classes/build/tools/generatecurrencydata/GenerateCurrencyData.java:190-230 | The ints of slots k..675 in order, each the int `EntryIntFor` promises for its country, with special-case ints pointing into the final tables. The keys added are exactly the values of those slots that the source's guard sends to the special path. |
| MainTableAsWritten.BuildMainAsWritten | jdk/make/src/classes/build/tools/generatecurrencydata/GenerateCurrencyData.java:189-231 | The source's build with its guard gives 676 ints and well-formed special-case tables. Their keys are exactly the values the guard sends to `makeSpecialCaseEntry`. Every slot holds 0x7F for an absent country, 0x80 for an empty value, the simple-path int for a prefix match, and otherwise a pointer at the row of its value. |
| MainTableAsWritten.SpecialRowsInOrderAsWritten | jdk/make/src/classes/build/tools/generatecurrencydata/GenerateCurrencyData.java:189-231 | With the source's guard, a successful build's special-case keys are the values sent to `makeSpecialCaseEntry`, in the order the countries AA..ZZ first meet them. With the pointers of `MainTableAsWritten.SpecialSlotAsWritten`, this fixes every special int. |
| MainTableAsWritten.SpecialSlotAsWritten | jdk/make/src/classes/build/tools/generatecurrencydata/GenerateCurrencyData.java:221-226 | When the build succeeds, for a country the source's guard sends to the special path, the built int has bit 7 set and a final-character field i + 1 within the rows. Row i is keyed by the country's value and is what `makeSpecialCaseEntry` makes from it. |
| MainTableAsWritten.BuildMainAgrees | jdk/make/src/classes/build/tools/generatecurrencydata/GenerateCurrencyData.java:189-231 | When no country's value is a prefix match with a non-letter third character, the source's build and `MainTable.BuildMain` both succeed or both fail with the same error. On success, the source's ints are the packed entries and the special-case tables are the same. |
| MainTableAsWritten.LegacyCodeBuiltAsWritten | jdk/make/src/classes/build/tools/generatecurrencydata/GenerateCurrencyData.java:205-220 | When country XB has value XB5 and the source's build succeeds, XB's int is -12. That int decodes as special case 19, and the build required XB5's digits to be in 0..3. XB5 is a special-case key exactly when some other country, whose value the guard sends to the special path, also has the value XB5. So XB's own value adds no row. |
| OtherCurrencies.BuildOther | jdk/make/src/classes/build/tools/generatecurrencydata/GenerateCurrencyData.java:299-327 | The other-currency scan's size check, success condition and result, as detailed below. |
| OtherCurrencies.ScanRecord | jdk/make/src/classes/build/tools/generatecurrencydata/GenerateCurrencyData.java:303-325 | One record: a missing '-' before it is an error. A record that passes extends the list by its code exactly when the code needs an entry, and a failure means the record is rejected or the cap is passed. |
| OtherCurrencies.NeedsOtherIff | jdk/make/src/classes/build/tools/generatecurrencydata/GenerateCurrencyData.java:311-314 | Against a built main table, a listed code needs its own entry exactly when its country does not have it as its simple currency. |
| OtherCurrencies.NeedsOtherDecode | jdk/make/src/classes/build/tools/generatecurrencydata/GenerateCurrencyData.java:311-314 | The three mask tests on a code's country int hold exactly when the code starts with two letters and the int does not decode as a simple entry with the code's final letter. The code check guarantees the two letters. Its partner `OtherCurrencies.NeedsOtherIff` relates the same test to the property table. |
| OtherCurrencies.Append | jdk/make/src/classes/build/tools/generatecurrencydata/GenerateCurrencyData.java:318-324 | Appending a code adds it last, with its default digits and numeric code. The joined string stays the dash-join of the codes. |
| OtherCurrencies.DashJoinAppend | jdk/make/src/classes/build/tools/generatecurrencydata/GenerateCurrencyData.java:318-321 | A '-' goes before the new code exactly when the joined string was non-empty, which is when the list was non-empty. |
| Generator.Generate | jdk/make/src/classes/build/tools/generatecurrencydata/GenerateCurrencyData.java:152-155 | The stages run in the source's order. A missing required key fails with the missing-data error before any table is built. A main-table error is the run's error. When the registry size, every record and the cap of 70 all pass, the run succeeds. On success the input is the required properties, the main table is built from the property table, and the other currencies are the reference ones for its ints. |

Full statements for the rows that say "as detailed below":

- **SpecialCases.MakeRecord**
  - A three-character info makes a row exactly when it passes the currency-code check and has a numeric code. That row has no successor, a `Long.MAX_VALUE` cut-over, and zero new digits and numeric code.
  - Any other info needs ';' at index 3 and at length - 4. Otherwise it is an invalid-info error, or an index error when it is 1 or 2 characters long.
  - Old code is characters 0..2 and new code the last three. Both pass the check, and the cut-over time is the parse of characters 4..length-5.
  - Each side's digits and numeric code are its own lookups.
- **SpecialCases.Intern**
  - A string already in the memo returns its earlier index and changes nothing.
  - A new string when 30 rows exist is an error.
  - Otherwise the new string gets index = old count, and the tables grow by exactly that row and key.
  - The tables' shape and their rows-made invariant are preserved.
- **MainTable.MainTableReadsBack**
  - 0x7F exactly for an absent country, and 0x80 exactly for an empty value.
  - A simple value reads back as its letter offset, its default digits and its numeric code.
  - Any other value reads back as bit 7 plus a pointer to its row.
- **OtherCurrencies.BuildOther**
  - A size not 6 mod 7 fails.
  - Success holds exactly when every record passes the source's checks, in order, and at most 70 codes need their own entry.
  - The codes kept are, in registry order, those whose main-table entry is 0x7F, has bit 7 set, or has another final letter. They are dash-joined, with matching digits and numeric codes.

## Left out

- `main`, the `-o` argument handling and `System.exit` are process plumbing. An error is a `Failure` value instead.
- `readInput`'s `Properties.load` from standard input is I/O. The property table is an input `map<string, string>`, `Registry.ReadInput` models the check for the seven required keys, and `Generator.Generate` runs it ahead of the two builds.
- `SimpleDateFormat` parsing of the cut-over text, and the sanity window of 100 years around `System.currentTimeMillis()`, are a library call and a clock. They are the parameter `timeOf` (`SpecialCases.TimeParser`), which gives the cut-over time or nothing. `BadCutOverTime` covers both a parse failure and the window.
- `writeOutput` and the `write*Array` helpers serialise through `DataOutputStream` and modified UTF-8. The model stops at the built tables: the main table's ints (`MainTable.MainInts`), the special-case rows and the other-currency tables.
- `Integer.parseInt` of `formatVersion` and `dataVersion` carries the values through without logic.
- Text.ParseInt: accepts only ASCII digits. Java's `Integer.parseInt` also accepts other Unicode decimal digits, but the registry and its records are ASCII text.
- The memo `specialCaseMap` is a `HashMap` from info string to row index. The model keeps its keys in insertion order (`SpecialTable.keys`), and a key's row index is its position (`SpecialCases.IndexIn`). Both describe the same lookup, because rows are appended in the order keys are added.
- `MainTable.SimpleEntry`: requires a letter in the third position, which the source does not check. The source's simple path without that requirement is `MainTableAsWritten.SimpleIntAsWritten`.
- `MainTable.EntryFor`: uses the corrected guard, so a prefix-matching value with a non-letter third character goes to the special-case tables. Only XB5 gets past the code check. For it, the source stores -12 and adds no row, while the model adds a bare row. The model can then fail with too many special cases where the source does not. The model can also succeed where the source fails, because XB5 has undefined digits or a numeric code outside 0..999. An example of the latter is an `all` holding `XB5-12`, which reads as -12; the bare row does no range check. Any other such value fails the code check in the source, but may fail with too many special cases first in the model.
- `MainTable.BuildRows`: inherits these differences from `MainTable.EntryFor`.
- `MainTable.BuildMain`: inherits these differences from `MainTable.EntryFor`. `MainTableAsWritten.BuildMainAsWritten` builds with the source's guard, and `MainTableAsWritten.BuildMainAgrees` proves the two builds agree whenever no country has such a value.
- `Layout.MagicNumber` is written only by `writeOutput`, which is left out, so no contract uses it.
- Exception messages are not modelled. Each error kind is a variant of `Results.Error`, with the offending code or text where the source reports it.
- Strings are sequences of Unicode scalar values, while Java's `length`, `charAt` and `indexOf` count UTF-16 units. The two agree inside the Basic Multilingual Plane. A value with a character outside it has a different length in the model, which changes only the kind of error reported: `XB=XB\U{1F600}` is `IllegalCodeChar` in the model and an invalid-entry error in the source.
- `getNumericCode` on a code that is not in `all` reads characters 2..4 of `all`, as the source does. All callers check the code first, so the model follows the source and does not treat this as an error.

## Findings

| source | as written | input that shows it | evidently intended | confidence | as-written member | corrected member |
|---|---|---|---|---|---|---|
| jdk/make/src/classes/build/tools/generatecurrencydata/GenerateCurrencyData.java:205-220 | A three-character value whose first two characters are the country code takes the simple path. It packs `charAt(2) - 'A'` into the low five bits without checking that the third character is a letter. | Property `XB=XB5`: the legacy code passes `checkCurrencyCode` and gets offset '5' - 'A' = -12. The packed int is -12 for any digits and numeric code. It has bit 7 set and reads back as special case 19, not as XB5. | Only a third character in 'A'..'Z' takes the simple path. Any other value, XB5 included, goes to the special-case tables, where a bare code is stored verbatim. | medium; not executed | MainTable.LegacyCodeAsWritten | MainTable.LegacyCodeIsSpecial |

The rest of the model uses the corrected guard: `MainTable.IsSimpleInfo` requires a letter in the third position. The guard as written is `MainTable.IsSimpleInfoAsWritten`. The module `MainTableAsWritten` builds the whole table with that guard. There, `MainTableAsWritten.LegacyCodeBuiltAsWritten` shows the -12 landing in XB's slot, and `MainTableAsWritten.BuildMainAgrees` shows the two builds agree on every property table without such a value.

=== FILE: aswritten.dfy ===
/** The main-table build with the simple-path guard exactly as the generator
    writes it: a three-character value whose first two characters are the
    country code is packed as a simple entry, whatever its third character.
    Entries are produced directly as the ints the generator stores.

    The rest of the model uses the guard of `MainTable.IsSimpleInfo`, which
    also asks for a letter in the third position. `BuildMainAgrees` shows the
    two builds give the same table, the same special-case tables and the same
    error whenever no country's value is a prefix match with a non-letter
    third character; the only such value the code check lets through is XB5. */
module MainTableAsWritten {
  import opened Results
  import opened Text
  import opened Layout
  import opened Registry
  import opened SpecialCases
  import opened MainTable

  /** The simple-case int of a three-character value after the source's
      checks, with the final-letter offset `charAt(2) - 'A'` taken from
      whatever character is there. */
  function SimpleIntAsWritten(reg: Registry, code: string): (r: Result<int, Error>)
    requires |code| == 3
    ensures IsUpper(code[2]) ==>
      && (r.Success? <==> SimpleEntry(reg, code).Success?)
      && (r.Failure? ==> r.error == SimpleEntry(reg, code).error)
      && (r.Success? ==> r.value == Pack(SimpleEntry(reg, code).value))
    ensures r.Success? && !IsUpper(code[2]) ==>
      && code == LegacyCode
      && 0 <= DefaultFractionDigits(reg, code) <= 3
      && r.value == -12
  {
    var _ :- CheckCurrencyCode(reg, code);
    var digits := DefaultFractionDigits(reg, code);
    if digits < 0 || digits > 3 then Failure(FractionDigitsOutOfRange(code))
    else
      var numeric :- NumericCode(reg, code);
      if numeric < 0 || numeric >= 1000 then Failure(NumericCodeOutOfRange(code))
      else
        NonLetterFinalCharMisread(digits, numeric);
        Success(SimpleEntryAsWritten(code[2], digits, numeric))
  }

  /** The int of one country, interning a special case when the source's guard
      sends the value there. */
  function EntryIntFor(reg: Registry, timeOf: TimeParser, props: map<string, string>,
                       cc: string, t: SpecialTable): (r: Result<(int, SpecialTable), Error>)
    requires |cc| == 2 && Shape(t)
    ensures r.Success? ==> Shape(r.value.1) && Extends(t, r.value.1)
    ensures r.Success? ==> (RowsMade(reg, timeOf, t) ==> RowsMade(reg, timeOf, r.value.1))
    ensures r.Success? ==> IntRight(reg, props, cc, t, r.value.0, r.value.1)
    ensures r.Success? ==> KeySet(r.value.1.keys) == KeySet(t.keys) + SlotInfoAsWritten(props, cc)
  {
    if cc !in props then Success((InvalidCountryEntry, t))
    else
      var info := props[cc];
      if |info| == 0 then Success((CountryWithoutCurrencyEntry, t))
      else if IsSimpleInfoAsWritten(cc, info) then
        var v :- SimpleIntAsWritten(reg, info);
        Success((v, t))
      else
        var p :- Intern(reg, timeOf, t, info);
        IndexInDistinct(p.1.keys, p.0);
        InternKeySet(reg, timeOf, t, info);
        Success((PackAsWritten(Special(p.0)), p.1))
  }

  /** The source's guard sends country `cc` to makeSpecialCaseEntry: its value
      is non-empty and not a prefix match. */
  ghost predicate SpecialPathAsWritten(props: map<string, string>, cc: string)
    requires |cc| == 2
  {
    cc in props && props[cc] != "" && !IsSimpleInfoAsWritten(cc, props[cc])
  }

  /** `v` is the special-case int pointing, with delta 1, at the row of `info`
      in `t`. */
  ghost predicate PointsAt(t: SpecialTable, info: string, v: int) {
    var i := IndexIn(t.keys, info);
    0 <= i < MaxSpecialCases && v == PackAsWritten(Special(i))
  }

  /** A pointer into the tables survives growing them. */
  lemma PointsAtExtends(t1: SpecialTable, t2: SpecialTable, info: string, v: int)
    requires Extends(t1, t2) && Shape(t2) && PointsAt(t1, info, v)
    ensures PointsAt(t2, info, v)
  {
    var i := IndexIn(t1.keys, info);
    ExtendsKey(t1, t2, i);
    IndexInDistinct(t2.keys, i);
  }

  /** What the source stores for country `cc`: 0x7F when absent, 0x80 when
      empty, for a prefix match the simple-case int with no row added, and
      otherwise a pointer at the value's row. */
  ghost predicate IntRight(reg: Registry, props: map<string, string>, cc: string,
                           t: SpecialTable, v: int, t': SpecialTable)
    requires |cc| == 2
  {
    && (cc !in props ==> v == InvalidCountryEntry)
    && (cc in props && props[cc] == "" ==> v == CountryWithoutCurrencyEntry)
    && (cc in props && IsSimpleInfoAsWritten(cc, props[cc]) ==>
          t' == t && SimpleIntAsWritten(reg, props[cc]) == Success(v))
    && (SpecialPathAsWritten(props, cc) ==> PointsAt(t', props[cc], v))
  }

  /** The ints of slots k..675, in order, threading the special-case tables. */
  function BuildIntsAsWritten(reg: Registry, timeOf: TimeParser, props: map<string, string>,
                              k: nat, t: SpecialTable): (r: Result<(seq<int>, SpecialTable), Error>)
    requires k <= TableSize && Shape(t)
    ensures r.Success? ==>
      && |r.value.0| == TableSize - k
      && Shape(r.value.1) && Extends(t, r.value.1)
      && (RowsMade(reg, timeOf, t) ==> RowsMade(reg, timeOf, r.value.1))
      && (forall j :: 0 <= j < |r.value.0| ==> IntSlotRight(reg, props, r.value.1, k, r.value.0, j))
      && KeySet(r.value.1.keys) == KeySet(t.keys) + SpecialInfosAsWrittenFrom(props, k)
    decreases TableSize - k
  {
    if k == TableSize then
      assert SpecialInfosAsWrittenFrom(props, k) == {};
      Success(([], t))
    else
      var p :- EntryIntFor(reg, timeOf, props, CountryCode(k), t);
      var q :- BuildIntsAsWritten(reg, timeOf, props, k + 1, p.1);
      ExtendsTransitive(t, p.1, q.1);
      PrependInt(reg, props, k, k + 1, t, p.1, q.1, p.0, q.0);
      SpecialInfosAsWrittenStep(props, k);
      UnionStep(KeySet(q.1.keys), KeySet(p.1.keys), KeySet(t.keys),
                SlotInfoAsWritten(props, CountryCode(k)), SpecialInfosAsWrittenFrom(props, k + 1),
                SpecialInfosAsWrittenFrom(props, k));
      Success(([p.0] + q.0, q.1))
  }

  /** Entry j of `ints`, the int of slot k + j, is what the source stores for
      its country, with special cases pointing into the final tables `t`. */
  ghost predicate IntSlotRight(reg: Registry, props: map<string, string>, t: SpecialTable,
                               k: nat, ints: seq<int>, j: nat) {
    && j < |ints| && k + j < TableSize
    && var cc := CountryCode(k + j);
       && (cc !in props ==> ints[j] == InvalidCountryEntry)
       && (cc in props && props[cc] == "" ==> ints[j] == CountryWithoutCurrencyEntry)
       && (cc in props && IsSimpleInfoAsWritten(cc, props[cc]) ==>
             SimpleIntAsWritten(reg, props[cc]) == Success(ints[j]))
       && (SpecialPathAsWritten(props, cc) ==> PointsAt(t, props[cc], ints[j]))
  }

  lemma PrependInt(reg: Registry, props: map<string, string>, k: nat, next: nat,
                   t: SpecialTable, t': SpecialTable, t'': SpecialTable, v: int, rest: seq<int>)
    requires k < TableSize && next == k + 1 && next + |rest| == TableSize
    requires IntRight(reg, props, CountryCode(k), t, v, t')
    requires Extends(t', t'') && Shape(t'')
    requires forall j :: 0 <= j < |rest| ==> IntSlotRight(reg, props, t'', next, rest, j)
    ensures forall j :: 0 <= j < 1 + |rest| ==> IntSlotRight(reg, props, t'', k, [v] + rest, j)
  {
    if SpecialPathAsWritten(props, CountryCode(k)) {
      PointsAtExtends(t', t'', props[CountryCode(k)], v);
    }
    forall j | 0 <= j < 1 + |rest|
      ensures IntSlotRight(reg, props, t'', k, [v] + rest, j)
    {
      if j > 0 {
        assert IntSlotRight(reg, props, t'', next, rest, j - 1);
        assert ([v] + rest)[j] == rest[j - 1] && k + j == next + (j - 1);
      }
    }
  }

  /** The distinct values the source's guard sends to the special-case tables. */
  ghost function SpecialInfosAsWritten(props: map<string, string>): set<string> {
    SpecialInfosAsWrittenFrom(props, 0)
  }

  /** The same, over slots k..675. */
  ghost function SpecialInfosAsWrittenFrom(props: map<string, string>, k: nat): set<string> {
    set j | k <= j < TableSize && SpecialPathAsWritten(props, CountryCode(j)) :: props[CountryCode(j)]
  }

  /** The value of country `cc` when the source's guard sends it to the
      special-case tables; nothing otherwise. */
  ghost function SlotInfoAsWritten(props: map<string, string>, cc: string): set<string>
    requires |cc| == 2
  {
    if SpecialPathAsWritten(props, cc) then {props[cc]} else {}
  }

  lemma SpecialInfosAsWrittenStep(props: map<string, string>, k: nat)
    requires k < TableSize
    ensures SpecialInfosAsWrittenFrom(props, k) ==
      SlotInfoAsWritten(props, CountryCode(k)) + SpecialInfosAsWrittenFrom(props, k + 1)
  {
    forall x | x in SpecialInfosAsWrittenFrom(props, k)
      ensures x in SlotInfoAsWritten(props, CountryCode(k)) + SpecialInfosAsWrittenFrom(props, k + 1)
    {
      var j :| k <= j < TableSize && SpecialPathAsWritten(props, CountryCode(j)) && props[CountryCode(j)] == x;
      if j > k {
        assert x in SpecialInfosAsWrittenFrom(props, k + 1);
      }
    }
  }

  /** buildMainAndSpecialCaseTables with the source's guard: the int array and
      the special-case tables. Every row is the one its key makes, and the
      keys are exactly the values the guard sends to makeSpecialCaseEntry. */
  function BuildMainAsWritten(reg: Registry, timeOf: TimeParser, props: map<string, string>)
    : (r: Result<(seq<int>, SpecialTable), Error>)
    ensures r.Success? ==>
      && |r.value.0| == TableSize && Wf(reg, timeOf, r.value.1)
      && KeySet(r.value.1.keys) == SpecialInfosAsWritten(props)
      && forall k :: 0 <= k < TableSize ==> IntSlotRight(reg, props, r.value.1, 0, r.value.0, k)
  {
    assert KeySet(EmptyTable.keys) == {};
    BuildIntsAsWritten(reg, timeOf, props, 0, EmptyTable)
  }

  /** Read back with the masks, the int of a country the source's guard sends
      to the special path points, with delta 1, at a row keyed by its value
      and made from it. */
  lemma SpecialSlotAsWritten(reg: Registry, timeOf: TimeParser, props: map<string, string>, cc: string)
    requires |cc| == 2 && IsUpper(cc[0]) && IsUpper(cc[1])
    requires SpecialPathAsWritten(props, cc)
    ensures BuildMainAsWritten(reg, timeOf, props).Success? ==>
      SlotReadsBack(reg, timeOf, props, cc, BuildMainAsWritten(reg, timeOf, props).value)
  {
    if BuildMainAsWritten(reg, timeOf, props).Success? {
      var b := BuildMainAsWritten(reg, timeOf, props).value;
      assert IntSlotRight(reg, props, b.1, 0, b.0, CountryIndex(cc));
      SlotReadsBackAsWritten(reg, timeOf, props, b, cc);
    }
  }

  /** The int of country `cc` has bit 7 set and, less the delta 1, indexes a
      row of `b`'s tables keyed by `cc`'s value and made from it. */
  ghost predicate SlotReadsBack(reg: Registry, timeOf: TimeParser, props: map<string, string>, cc: string,
                                b: (seq<int>, SpecialTable))
    requires |cc| == 2 && IsUpper(cc[0]) && IsUpper(cc[1]) && cc in props
  {
    && CountryIndex(cc) < |b.0|
    && var v := b.0[CountryIndex(cc)];
       && TypeBitOf(v) == 1 && 1 <= FinalCharOf(v) <= |b.1.cases| <= |b.1.keys|
       && b.1.keys[FinalCharOf(v) - 1] == props[cc]
       && MakeRecord(reg, timeOf, props[cc]) == Success(b.1.cases[FinalCharOf(v) - 1])
  }

  /** The slot of a special-path country in well-formed tables reads back. */
  lemma SlotReadsBackAsWritten(reg: Registry, timeOf: TimeParser, props: map<string, string>,
                               b: (seq<int>, SpecialTable), cc: string)
    requires |cc| == 2 && IsUpper(cc[0]) && IsUpper(cc[1]) && SpecialPathAsWritten(props, cc)
    requires Wf(reg, timeOf, b.1) && IntSlotRight(reg, props, b.1, 0, b.0, CountryIndex(cc))
    ensures SlotReadsBack(reg, timeOf, props, cc, b)
  {
    CountryIndexCode(cc);
    assert CountryCode(0 + CountryIndex(cc)) == cc;
    PointsAtReadsBack(reg, timeOf, b.1, props[cc], b.0[CountryIndex(cc)]);
  }

  /** The values the source's guard sends to makeSpecialCaseEntry, in the
      order the build first meets them: slots k..675 in turn, each new value
      appended to `keys`. */
  ghost function FirstSeenAsWrittenFrom(props: map<string, string>, k: nat, keys: seq<string>): seq<string>
    requires k <= TableSize
    decreases TableSize - k
  {
    if k == TableSize then keys
    else
      var cc := CountryCode(k);
      FirstSeenAsWrittenFrom(props, k + 1, if SpecialPathAsWritten(props, cc) then AddKey(keys, props[cc]) else keys)
  }

  /** Slots k..675 of the source's build add their rows in first-seen order. */
  lemma {:induction false} BuildIntsInOrderAsWritten(reg: Registry, timeOf: TimeParser,
                                                     props: map<string, string>, k: nat, t: SpecialTable)
    requires k <= TableSize && Shape(t)
    ensures IntsInOrder(reg, timeOf, props, k, t)
    decreases TableSize - k
  {
    if k < TableSize {
      var p := EntryIntFor(reg, timeOf, props, CountryCode(k), t);
      if p.Success? {
        BuildIntsInOrderAsWritten(reg, timeOf, props, k + 1, p.value.1);
      }
      IntsInOrderAt(reg, timeOf, props, k, t);
    } else {
      IntsInOrderAtEnd(reg, timeOf, props, t);
    }
  }

  /** A successful build of slots k..675 leaves the keys of `t` followed by
      the new values in first-seen order. */
  ghost predicate IntsInOrder(reg: Registry, timeOf: TimeParser, props: map<string, string>,
                              k: nat, t: SpecialTable)
    requires k <= TableSize && Shape(t)
  {
    var b := BuildIntsAsWritten(reg, timeOf, props, k, t);
    b.Success? ==> b.value.1.keys == FirstSeenAsWrittenFrom(props, k, t.keys)
  }

  /** Order after slot k, from the table slot k leaves, gives order from k. */
  lemma IntsInOrderAt(reg: Registry, timeOf: TimeParser, props: map<string, string>, k: nat, t: SpecialTable)
    requires k < TableSize && Shape(t)
    requires var p := EntryIntFor(reg, timeOf, props, CountryCode(k), t);
      p.Success? ==> IntsInOrder(reg, timeOf, props, k + 1, p.value.1)
    ensures IntsInOrder(reg, timeOf, props, k, t)
  {
    var cc := CountryCode(k);
    if EntryIntFor(reg, timeOf, props, cc, t).Success? && SpecialPathAsWritten(props, cc) {
      InternAddsKey(reg, timeOf, t, props[cc]);
    }
  }

  lemma IntsInOrderAtEnd(reg: Registry, timeOf: TimeParser, props: map<string, string>, t: SpecialTable)
    requires Shape(t)
    ensures IntsInOrder(reg, timeOf, props, TableSize, t)
  {
  }

  /** The special-case rows of the source's successful build come in the order
      the countries AA..ZZ first meet their values; with the pointers of
      `SpecialSlotAsWritten` this fixes every special int. */
  lemma SpecialRowsInOrderAsWritten(reg: Registry, timeOf: TimeParser, props: map<string, string>)
    ensures BuildMainAsWritten(reg, timeOf, props).Success? ==>
      BuildMainAsWritten(reg, timeOf, props).value.1.keys == FirstSeenAsWrittenFrom(props, 0, [])
  {
    BuildIntsInOrderAsWritten(reg, timeOf, props, 0, EmptyTable);
  }

  /** A pointer into well-formed tables reads back, with the masks, as bit 7
      and the row index plus 1; the row there is keyed by, and made from,
      the value. */
  lemma PointsAtReadsBack(reg: Registry, timeOf: TimeParser, t: SpecialTable, info: string, v: int)
    requires Wf(reg, timeOf, t) && PointsAt(t, info, v)
    ensures TypeBitOf(v) == 1 && 1 <= FinalCharOf(v) <= |t.cases|
    ensures t.keys[FinalCharOf(v) - 1] == info
    ensures MakeRecord(reg, timeOf, info) == Success(t.cases[FinalCharOf(v) - 1])
  {
    var i := IndexIn(t.keys, info);
    PackFields(Special(i));
    SpecialFields(i);
    assert RowMade(reg, timeOf, t, i);
  }

  /** Country `cc`'s value is not a prefix match with a non-letter third
      character, so the two guards send it the same way. */
  ghost predicate GuardsAgreeOn(props: map<string, string>, cc: string)
    requires |cc| == 2
  {
    cc in props && IsSimpleInfoAsWritten(cc, props[cc]) ==> IsUpper(props[cc][2])
  }

  ghost predicate GuardsAgreeAt(props: map<string, string>, k: nat)
    requires k < TableSize
  {
    GuardsAgreeOn(props, CountryCode(k))
  }

  /** One country: where the guards agree, the source's int is the packed
      entry of the model, the tables are the same, and so is any error. */
  lemma EntryAgrees(reg: Registry, timeOf: TimeParser, props: map<string, string>, cc: string, t: SpecialTable)
    requires |cc| == 2 && Shape(t) && GuardsAgreeOn(props, cc)
    ensures var a := EntryIntFor(reg, timeOf, props, cc, t);
      var b := EntryFor(reg, timeOf, props, cc, t);
      && (a.Success? <==> b.Success?)
      && (b.Failure? ==> a.error == b.error)
      && (b.Success? ==> a.value == (Pack(b.value.0), b.value.1))
  {
    if cc in props && |props[cc]| > 0 && IsSimpleInfoAsWritten(cc, props[cc]) {
      assert IsSimpleInfo(cc, props[cc]);
    } else if cc in props && |props[cc]| > 0 {
      assert !IsSimpleInfo(cc, props[cc]);
      var p := Intern(reg, timeOf, t, props[cc]);
      if p.Success? {
        assert Valid(Special(p.value.0));
      }
    }
  }

  /** Slots k..675: where the guards agree on every one of them, the source's
      ints are the packed entries of the model, with the same tables, and the
      two builds fail with the same error. */
  lemma {:induction false} BuildIntsAgree(reg: Registry, timeOf: TimeParser, props: map<string, string>,
                                          k: nat, t: SpecialTable)
    requires k <= TableSize && Shape(t)
    requires forall j :: k <= j < TableSize ==> GuardsAgreeAt(props, j)
    ensures BuildsAgree(reg, timeOf, props, k, t)
    decreases TableSize - k
  {
    if k < TableSize {
      var e := EntryFor(reg, timeOf, props, CountryCode(k), t);
      if e.Success? {
        BuildIntsAgree(reg, timeOf, props, k + 1, e.value.1);
      }
      AgreeAt(reg, timeOf, props, k, t);
    } else {
      AgreeAtEnd(reg, timeOf, props, t);
    }
  }

  /** With no slots left, both builds return the table unchanged and no ints. */
  lemma AgreeAtEnd(reg: Registry, timeOf: TimeParser, props: map<string, string>, t: SpecialTable)
    requires Shape(t)
    ensures BuildsAgree(reg, timeOf, props, TableSize, t)
  {
  }

  /** Where the guards agree on slot k, agreement on the slots after it
      (from the table slot k leaves) gives agreement on k..675. */
  lemma AgreeAt(reg: Registry, timeOf: TimeParser, props: map<string, string>, k: nat, t: SpecialTable)
    requires k < TableSize && Shape(t) && GuardsAgreeAt(props, k)
    requires var e := EntryFor(reg, timeOf, props, CountryCode(k), t);
      e.Success? ==> BuildsAgree(reg, timeOf, props, k + 1, e.value.1)
    ensures BuildsAgree(reg, timeOf, props, k, t)
  {
    EntryAgrees(reg, timeOf, props, CountryCode(k), t);
    if EntryFor(reg, timeOf, props, CountryCode(k), t).Success? {
      AgreeStep(reg, timeOf, props, k, t);
    }
  }

  /** The two builds of slots k..675 agree: same outcome, same error, same
      tables, and the ints are the packed entries. */
  ghost predicate BuildsAgree(reg: Registry, timeOf: TimeParser, props: map<string, string>,
                              k: nat, t: SpecialTable)
    requires k <= TableSize && Shape(t)
  {
    var a := BuildIntsAsWritten(reg, timeOf, props, k, t);
    var b := BuildRows(reg, timeOf, props, k, t);
    && (a.Success? <==> b.Success?)
    && (b.Failure? ==> a.error == b.error)
    && (b.Success? ==> a.value.1 == b.value.1 && PacksTo(a.value.0, b.value.0))
  }

  /** Agreement on slot k and on slots k+1..675 gives agreement on k..675. */
  lemma AgreeStep(reg: Registry, timeOf: TimeParser, props: map<string, string>, k: nat, t: SpecialTable)
    requires k < TableSize && Shape(t)
    requires EntryFor(reg, timeOf, props, CountryCode(k), t).Success?
    requires var p := EntryFor(reg, timeOf, props, CountryCode(k), t).value;
      && EntryIntFor(reg, timeOf, props, CountryCode(k), t) == Success((Pack(p.0), p.1))
      && BuildsAgree(reg, timeOf, props, k + 1, p.1)
    ensures BuildsAgree(reg, timeOf, props, k, t)
  {
    var p := EntryFor(reg, timeOf, props, CountryCode(k), t).value;
    var b := BuildRows(reg, timeOf, props, k + 1, p.1);
    if b.Success? {
      var a := BuildIntsAsWritten(reg, timeOf, props, k + 1, p.1);
      PacksToCons(p.0, a.value.0, b.value.0);
    }
  }

  /** Each int is the packing of the valid entry at the same position. */
  ghost predicate PacksTo(ints: seq<int>, entries: seq<Entry>) {
    && |ints| == |entries|
    && forall j :: 0 <= j < |entries| ==> Valid(entries[j]) && ints[j] == Pack(entries[j])
  }

  lemma PacksToCons(e: Entry, ints: seq<int>, entries: seq<Entry>)
    requires Valid(e) && PacksTo(ints, entries)
    ensures PacksTo([Pack(e)] + ints, [e] + entries)
  {
    forall j | 0 < j <= |entries|
      ensures ([e] + entries)[j] == entries[j - 1] && ([Pack(e)] + ints)[j] == ints[j - 1]
    {
    }
  }

  /** Where no country's value is a prefix match with a non-letter third
      character, the source's build and the model's build agree: both succeed
      or both fail with the same error, and on success the source's int array
      is the model's packed table and the special-case tables are the same. */
  lemma BuildMainAgrees(reg: Registry, timeOf: TimeParser, props: map<string, string>)
    requires forall k :: 0 <= k < TableSize ==> GuardsAgreeAt(props, k)
    ensures var a := BuildMainAsWritten(reg, timeOf, props);
      var b := BuildMain(reg, timeOf, props);
      && (a.Success? <==> b.Success?)
      && (b.Failure? ==> a.error == b.error)
      && (b.Success? ==> a.value.0 == MainInts(b.value) && a.value.1 == b.value.special)
  {
    BuildIntsAgree(reg, timeOf, props, 0, EmptyTable);
    assert BuildsAgree(reg, timeOf, props, 0, EmptyTable);
    var b := BuildMain(reg, timeOf, props);
    if b.Success? {
      var a := BuildMainAsWritten(reg, timeOf, props);
      assert PacksTo(a.value.0, b.value.entries);
      assert a.value.0 == MainInts(b.value);
    }
  }

  /** With the source's guard, XB5 for country XB is stored as -12, which the
      reader takes for special case 19; the build demands digits in 0..3 for
      XB5 and adds no special-case row for it: XB5 is a key only when some
      other country also has the value XB5. */
  lemma LegacyCodeBuiltAsWritten(reg: Registry, timeOf: TimeParser, props: map<string, string>)
    requires "XB" in props && props["XB"] == LegacyCode
    ensures BuildMainAsWritten(reg, timeOf, props).Success? ==>
      var b := BuildMainAsWritten(reg, timeOf, props).value;
      && b.0[CountryIndex("XB")] == -12
      && Decode(-12) == Some(Special(19))
      && 0 <= DefaultFractionDigits(reg, LegacyCode) <= 3
      && (LegacyCode in KeySet(b.1.keys) <==>
            exists j :: 0 <= j < TableSize && CountryCode(j) != "XB" && OwnValue(props, j) == LegacyCode)
  {
    if BuildMainAsWritten(reg, timeOf, props).Success? {
      var b := BuildMainAsWritten(reg, timeOf, props).value;
      var k := CountryIndex("XB");
      CountryIndexCode("XB");
      assert IntSlotRight(reg, props, b.1, 0, b.0, k);
      assert IsSimpleInfoAsWritten("XB", LegacyCode) && !IsUpper(LegacyCode[2]);
      NonLetterFinalCharMisread(0, 0);
      if LegacyCode in KeySet(b.1.keys) {
        var j :| 0 <= j < TableSize && SpecialPathAsWritten(props, CountryCode(j)) && props[CountryCode(j)] == LegacyCode;
        assert OwnValue(props, j) == LegacyCode;
      }
      if j :| 0 <= j < TableSize && CountryCode(j) != "XB" && OwnValue(props, j) == LegacyCode {
        var cc := CountryCode(j);
        assert cc == [cc[0], cc[1]];
        assert SpecialPathAsWritten(props, cc);
        assert LegacyCode in SpecialInfosAsWrittenFrom(props, 0);
      }
    }
  }

  /** The value of country j, or "" when it has none. */
  ghost function OwnValue(props: map<string, string>, j: nat): string
    requires j < TableSize
  {
    if CountryCode(j) in props then props[CountryCode(j)] else ""
  }
}

=== FILE: bits.dfy ===
/** Bit-level arithmetic on Java `int` values. The `|` operator is modelled bit by bit on naturals, and on Java ints
    through their unsigned 32-bit view. */
module Bits {

  const TwoTo31: int := 0x8000_0000
  const TwoTo32: int := 0x1_0000_0000

  predicate IsInt32(x: int) {
    -TwoTo31 <= x < TwoTo31
  }

  function Pow2(n: nat): (r: nat)
    ensures r >= 1
  {
    if n == 0 then 1 else 2 * Pow2(n - 1)
  }

  /** Bitwise OR of two naturals, lowest bit first. */
  function Or(a: nat, b: nat): nat
    decreases a + b
  {
    if a == 0 && b == 0 then 0
    else 2 * Or(a / 2, b / 2) + (if a % 2 == 1 || b % 2 == 1 then 1 else 0)
  }

  /** Java's `x | y` on two ints: OR of the unsigned 32-bit views, read back as
      a signed int. */
  function JavaOr(x: int, y: int): int
    requires IsInt32(x) && IsInt32(y)
  {
    var u := Or(x % TwoTo32, y % TwoTo32);
    if u >= TwoTo31 then u - TwoTo32 else u
  }

  /** OR of a value below 2^k with a multiple of 2^k is their sum: the two
      operands occupy disjoint bits. */
  lemma OrDisjoint(a: nat, c: nat, k: nat)
    requires a < Pow2(k)
    ensures Or(a, c * Pow2(k)) == a + c * Pow2(k)
  {
    OrAboveLowBits(a, 0, c, k);
    ShlIsMul(0, k);
    ShlIsMul(c, k);
    OrWithZero(c);
  }

  lemma {:induction false} OrCommutes(a: nat, b: nat)
    ensures Or(a, b) == Or(b, a)
    decreases a + b
  {
    if a != 0 || b != 0 {
      OrCommutes(a / 2, b / 2);
    }
  }

  lemma {:induction false} OrWithZero(b: nat)
    ensures Or(0, b) == b
    decreases b
  {
    if b != 0 {
      OrWithZero(b / 2);
    }
  }

  /** OR never sets a bit above the width of both operands. */
  lemma {:induction false} OrBound(a: nat, b: nat, n: nat)
    requires a < Pow2(n) && b < Pow2(n)
    ensures Or(a, b) < Pow2(n)
    decreases a + b
  {
    if a != 0 || b != 0 {
      assert n > 0;
      OrBound(a / 2, b / 2, n - 1);
    }
  }

  /** Java's OR on two ints is again an int. */
  lemma JavaOrIsInt32(x: int, y: int)
    requires IsInt32(x) && IsInt32(y)
    ensures IsInt32(JavaOr(x, y))
  {
    assert Pow2(32) == TwoTo32 by {
      Pow2Values();
    }
    OrBound(x % TwoTo32, y % TwoTo32, 32);
  }

  /** For non-negative ints Java's `|` is the bitwise OR of naturals. */
  lemma JavaOrOnNonNegative(x: int, y: int)
    requires 0 <= x < TwoTo31 && 0 <= y < TwoTo31
    ensures JavaOr(x, y) == Or(x, y)
  {
    assert Pow2(31) == TwoTo31 by {
      Pow2Values();
    }
    assert x % TwoTo32 == x && y % TwoTo32 == y;
    OrBound(x, y, 31);
  }

  lemma Pow2Values()
    ensures Pow2(5) == 32 && Pow2(7) == 128 && Pow2(8) == 256
    ensures Pow2(27) == 0x800_0000 && Pow2(31) == TwoTo31 && Pow2(32) == TwoTo32
  {
    assert Pow2(8) == 256;
    assert Pow2(16) == 65536;
    assert Pow2(24) == 0x100_0000;
    assert Pow2(27) == 0x800_0000;
    assert Pow2(31) == TwoTo31;
  }

  /** `x` shifted left by `k` bits. */
  function Shl(x: nat, k: nat): (r: nat)
  {
    if k == 0 then x else 2 * Shl(x, k - 1)
  }

  /** Shifting left by k bits multiplies by 2^k. */
  lemma {:induction false} ShlIsMul(x: nat, k: nat)
    ensures Shl(x, k) == x * Pow2(k)
  {
    if k > 0 {
      ShlIsMul(x, k - 1);
      assert x * Pow2(k) == 2 * (x * Pow2(k - 1));
    }
  }

  /** OR of two values whose low k bits come only from the first operand. */
  lemma {:induction false} OrAboveLowBits(a: nat, x: nat, y: nat, k: nat)
    requires a < Pow2(k)
    ensures Or(a + Shl(x, k), Shl(y, k)) == a + Shl(Or(x, y), k)
  {
    if k > 0 {
      OrAboveLowBits(a / 2, x, y, k - 1);
      OrShiftedIn(a / 2 + Shl(x, k - 1), Shl(y, k - 1), a % 2, a / 2 + Shl(Or(x, y), k - 1));
    }
  }

  /** Shifting both operands left and setting a low bit in one of them shifts
      their OR the same way. */
  lemma OrShiftedIn(h: nat, g: nat, r: nat, v: nat)
    requires r < 2
    requires Or(h, g) == v
    ensures Or(2 * h + r, 2 * g) == 2 * v + r
  {
    assert (2 * h + r) / 2 == h;
    assert (2 * h + r) % 2 == r;
    assert (2 * g) / 2 == g;
  }

  /** OR into a block of m one-bits changes nothing. */
  lemma {:induction false} OrAllOnes(m: nat, c: nat)
    requires c < Pow2(m)
    ensures Or(Pow2(m) - 1, c) == Pow2(m) - 1
  {
    if m > 0 {
      var h := Pow2(m - 1) - 1;
      assert Pow2(m) - 1 == 2 * h + 1;
      OrAllOnes(m - 1, c / 2);
      assert (2 * h + 1) / 2 == h && (2 * h + 1) % 2 == 1;
    }
  }

  /** In Java, -12 has every bit set except bits 0, 1 and 3, so OR-ing it with
      any value whose low five bits are clear gives -12 back. */
  lemma MinusTwelveAbsorbs(c: nat)
    requires c * 32 < TwoTo31
    ensures JavaOr(-12, c * 32) == -12
  {
    assert Pow2(5) == 32 && Pow2(27) == 0x800_0000 by {
      Pow2Values();
    }
    var ones := Pow2(27) - 1;
    var u := 20 + ones * Pow2(5);
    assert u == (-12) % TwoTo32 by {
      assert ones * Pow2(5) == 0xFFFF_FFE0;
    }
    assert (c * 32) % TwoTo32 == c * Pow2(5);
    assert c < Pow2(27);
    OrAboveLowBits(20, ones, c, 5);
    ShlIsMul(ones, 5);
    ShlIsMul(c, 5);
    ShlIsMul(Or(ones, c), 5);
    OrAllOnes(27, c);
    assert Or(u, c * Pow2(5)) == u;
  }

  /** Bitwise AND of two naturals, lowest bit first. */
  function And(a: nat, b: nat): (r: nat)
    ensures r <= a
  {
    if a == 0 || b == 0 then 0
    else 2 * And(a / 2, b / 2) + (if a % 2 == 1 && b % 2 == 1 then 1 else 0)
  }

  /** Java's `x & mask` for a non-negative mask: AND of the unsigned 32-bit
      view of `x` with the mask. */
  function JavaAnd(x: int, mask: nat): (r: nat)
    requires IsInt32(x) && mask < TwoTo31
  {
    And(x % TwoTo32, mask)
  }

  /** Dividing by 2 and then by p is dividing by 2p; the remainders combine
      the same way. */
  lemma DivModTwice(x: nat, p: nat)
    requires p > 0
    ensures x / 2 / p == x / (2 * p)
    ensures x % (2 * p) == 2 * (x / 2 % p) + x % 2
  {
    var q, r := x / 2, x % 2;
    var a, b := q / p, q % p;
    assert x == (2 * p) * a + (2 * b + r) by {
      assert q == p * a + b;
      assert x == 2 * q + r;
    }
    DivModUnique(x, 2 * p, a, 2 * b + r);
  }

  /** Quotient and remainder are the only such pair. */
  lemma DivModUnique(x: int, d: int, a: int, b: int)
    requires d > 0 && x == d * a + b && 0 <= b < d
    ensures x / d == a && x % d == b
  {
    var a', b' := x / d, x % d;
    assert d * a' + b' == d * a + b;
    if a' < a {
      MulMono(d, a' + 1, a);
      assert false;
    } else if a' > a {
      MulMono(d, a + 1, a');
      assert false;
    }
  }

  lemma MulMono(d: int, x: int, y: int)
    requires d > 0 && x <= y
    ensures d * x <= d * y
  {
  }

  /** One step of AND with an odd mask: the lowest bit of x is kept. */
  lemma AndOddStep(x: nat, h: nat)
    ensures And(x, 2 * h + 1) == 2 * And(x / 2, h) + x % 2
  {
    assert (2 * h + 1) / 2 == h && (2 * h + 1) % 2 == 1;
  }

  /** One step of AND with an even mask: the lowest bit is cleared. */
  lemma AndEvenStep(x: nat, h: nat)
    ensures And(x, 2 * h) == 2 * And(x / 2, h)
  {
    assert (2 * h) / 2 == h && (2 * h) % 2 == 0;
  }

  /** AND with m one-bits keeps the low m bits. */
  lemma {:induction false} AndLowOnes(x: nat, m: nat)
    ensures And(x, Pow2(m) - 1) == x % Pow2(m)
  {
    if m > 0 {
      var p := Pow2(m - 1);
      AndLowOnes(x / 2, m - 1);
      AndOddStep(x, p - 1);
      DivModTwice(x, p);
      assert Pow2(m) - 1 == 2 * (p - 1) + 1;
    }
  }

  /** `x` shifted right by `k` bits. */
  function Shr(x: nat, k: nat): (r: nat)
  {
    if k == 0 then x else Shr(x / 2, k - 1)
  }

  /** Shifting right by k bits divides by 2^k. */
  lemma {:induction false} ShrIsDiv(x: nat, k: nat)
    ensures Shr(x, k) == x / Pow2(k)
  {
    if k > 0 {
      ShrIsDiv(x / 2, k - 1);
      DivPow2Step(x, k);
    }
  }

  /** AND with a mask shifted left by s bits reads the bits of x from s on,
      left in place. */
  lemma {:induction false} AndShifted(x: nat, mask: nat, s: nat)
    ensures And(x, Shl(mask, s)) == Shl(And(Shr(x, s), mask), s)
  {
    if s > 0 {
      AndShifted(x / 2, mask, s - 1);
      AndEvenStep(x, Shl(mask, s - 1));
    }
  }

  /** Dividing by 2^s is halving, then dividing by 2^(s-1). */
  lemma DivPow2Step(x: nat, s: nat)
    requires s > 0
    ensures x / Pow2(s) == x / 2 / Pow2(s - 1)
  {
    DivModTwice(x, Pow2(s - 1));
  }

  /** The field of `width` bits at bit `s`, as a mask reads it: `x & mask`
      with mask `(2^width - 1) << s` is the field's value shifted left by s. */
  lemma AndField(x: nat, width: nat, s: nat)
    ensures And(x, Shl(Pow2(width) - 1, s)) == Shl(x / Pow2(s) % Pow2(width), s)
  {
    AndShifted(x, Pow2(width) - 1, s);
    ShrIsDiv(x, s);
    AndLowOnes(x / Pow2(s), width);
  }

  lemma {:induction false} Pow2Add(a: nat, b: nat)
    ensures Pow2(a + b) == Pow2(a) * Pow2(b)
  {
    if b > 0 {
      Pow2Add(a, b - 1);
      assert Pow2(a) * Pow2(b) == 2 * (Pow2(a) * Pow2(b - 1));
    }
  }
}

=== FILE: generate.dfy ===
/** One run of the generator: read the required properties, build the main
    and special-case tables, then the other-currencies tables, stopping at the
    first stage that fails. Writing the tables out is not modelled. */
module Generator {
  import opened Results
  import opened Layout
  import opened Registry
  import opened SpecialCases
  import opened MainTable
  import opened OtherCurrencies

  /** Everything the run builds before it writes its output. */
  datatype Generated = Generated(input: Input, main: MainTables, other: OtherTables)

  /** The stages in the source's order. A missing required key stops the run
      before any table is built; a main-table error stops it before the
      other-currencies scan, which succeeds exactly when every record passes
      and at most 70 codes need an entry. On success the main table is built
      from the property table and the other currencies are the reference ones
      for it. */
  method Generate(props: map<string, string>, timeOf: TimeParser) returns (r: Result<Generated, Error>)
    ensures (exists i :: 0 <= i < |RequiredKeys| && RequiredKeys[i] !in props) ==>
      r == Failure(MissingRequiredData)
    ensures ReadInput(props).Success? && BuildMain(ReadInput(props).value.registry, timeOf, props).Failure? ==>
      r == Failure(BuildMain(ReadInput(props).value.registry, timeOf, props).error)
    ensures ReadInput(props).Success? && BuildMain(ReadInput(props).value.registry, timeOf, props).Success? ==>
      var reg := ReadInput(props).value.registry;
      var main := MainInts(BuildMain(reg, timeOf, props).value);
      (&& |reg.all| % 7 == 6
       && AllRecordsOk(reg, main)
       && |OtherCodesUpTo(reg, main, RecordCount(reg.all))| <= MaxOtherCurrencies) ==> r.Success?
    ensures r.Success? ==>
      && (forall i :: 0 <= i < |RequiredKeys| ==> RequiredKeys[i] in props)
      && r.value.input.props == props
      && r.value.input.registry == Registry(props["all"], props["minor0"], props["minor1"],
                                            props["minor3"], props["minorUndefined"])
      && Built(r.value.input.registry, timeOf, props, r.value.main)
      && |props["all"]| % 7 == 6
      && AllRecordsOk(r.value.input.registry, MainInts(r.value.main))
      && r.value.other.codes == OtherCodesUpTo(r.value.input.registry, MainInts(r.value.main),
                                               RecordCount(props["all"]))
      && |r.value.other.codes| <= MaxOtherCurrencies
      && Describes(r.value.input.registry, r.value.other)
  {
    var input :- ReadInput(props);
    var main :- BuildMain(input.registry, timeOf, props);
    var other :- BuildOther(input.registry, MainInts(main));
    return Success(Generated(input, main, other));
  }
}

=== FILE: layout.dfy ===
/** The layout of one main-table entry, which must agree with the reader in
    java.util.Currency.

    An entry is one of four variants, kept here as a tagged value and packed
    into an int only when it is stored:
      - invalid country code:     0x7F
      - country without currency: 0x80
      - simple case:  final letter offset (bits 0-4) | default digits (bits 5-6)
                      | numeric code (bits 8-17), bit 7 clear
      - special case: 0x80 | (index + 1), the index into the special-case tables
    Every operand packed with `|` is a non-negative int below 2^31, where Java's
    `|` is `Bits.Or`. */
module Layout {
  import opened Bits
  import opened Results

  const MagicNumber: int := 0x43757244
  const AToZ: int := 26
  const InvalidCountryEntry: int := 0x007F
  const CountryWithoutCurrencyEntry: int := 0x0080
  const SimpleCaseCountryMask: nat := 0x0000
  const SimpleCaseCountryFinalCharMask: nat := 0x001F
  const SimpleCaseCountryDefaultDigitsMask: nat := 0x0060
  const SimpleCaseCountryDefaultDigitsShift: nat := 5
  const SpecialCaseCountryMask: nat := 0x0080
  const SpecialCaseCountryIndexMask: nat := 0x001F
  const SpecialCaseCountryIndexDelta: nat := 1
  const CountryTypeMask: nat := 0x0080 // SimpleCaseCountryMask | SpecialCaseCountryMask
  const NumericCodeMask: nat := 0x0003FF00
  const NumericCodeShift: nat := 8
  const MaxSpecialCases: nat := 30
  const MaxOtherCurrencies: nat := 70
  /** Long.MAX_VALUE: the cut-over time of a special case that never changes. */
  const NeverCutOver: int := 0x7FFF_FFFF_FFFF_FFFF

  /** The fields as bit ranges: `(v & mask) >> shift` is `v / 2^shift % 2^width`
      (floor division, so this holds for negative ints too; MasksReadFields). */
  function FinalCharOf(v: int): nat { v % 32 }                // v & 0x1F
  function DigitsOf(v: int): nat { v / 32 % 4 }               // (v & 0x60) >> 5
  function TypeBitOf(v: int): nat { v / 128 % 2 }             // (v & 0x80) >> 7
  function NumericOf(v: int): nat { v / 256 % 1024 }          // (v & 0x3FF00) >> 8

  datatype Entry =
    | Invalid
    | NoCurrency
    | Simple(finalChar: int, digits: int, numeric: int)
    | Special(index: int)

  /** The ranges the source enforces before it packs an entry. */
  predicate Valid(e: Entry) {
    match e
    case Simple(c, d, n) => 0 <= c < AToZ && 0 <= d <= 3 && 0 <= n < 1000
    case Special(i) => 0 <= i < MaxSpecialCases
    case _ => true
  }

  /** The int stored in the main table for an entry: the fields weighted by
      their bit positions. */
  function Pack(e: Entry): (v: int)
    requires Valid(e)
    ensures 0 <= v < 0x4_0000
    ensures TypeBitOf(v) == 0 <==> e.Invalid? || e.Simple?
    ensures v == InvalidCountryEntry <==> e.Invalid?
    ensures v == CountryWithoutCurrencyEntry <==> e.NoCurrency?
  {
    match e
    case Invalid => InvalidCountryEntry
    case NoCurrency => CountryWithoutCurrencyEntry
    case Simple(c, d, n) =>
      SimpleFields(c, d, n);
      c + 32 * d + 256 * n
    case Special(i) =>
      SpecialFields(i);
      SpecialCaseCountryMask + i + SpecialCaseCountryIndexDelta
  }

  /** The entry as the source builds it, OR-ing each field into its mask:
      the fields occupy disjoint bits, so this is Pack. */
  function PackAsWritten(e: Entry): (v: int)
    requires Valid(e)
    ensures v == Pack(e)
  {
    match e
    case Invalid => InvalidCountryEntry
    case NoCurrency => CountryWithoutCurrencyEntry
    case Simple(c, d, n) =>
      SimpleOrIsSum(c, d, n);
      Or(Or(Or(SimpleCaseCountryMask, c), d * 32), n * 256)
    case Special(i) =>
      SpecialOrIsSum(i);
      Or(SpecialCaseCountryMask, i + SpecialCaseCountryIndexDelta)
  }

  /** Reads an entry back with the masks: the inverse of Pack. Bit patterns
      that Pack never produces read as None. */
  function Decode(v: int): (r: Option<Entry>)
    ensures r.Some? && r.value.Simple? ==>
      && TypeBitOf(v) == 0 && v != InvalidCountryEntry
      && 0 <= r.value.finalChar < 32 && 0 <= r.value.digits < 4 && 0 <= r.value.numeric < 1024
    ensures r.Some? && r.value.Special? ==>
      && TypeBitOf(v) == 1 && v != CountryWithoutCurrencyEntry
      && 0 <= r.value.index < 31
  {
    if v == InvalidCountryEntry then Some(Invalid)
    else if TypeBitOf(v) == 0 then Some(Simple(FinalCharOf(v), DigitsOf(v), NumericOf(v)))
    else if v == CountryWithoutCurrencyEntry then Some(NoCurrency)
    else if FinalCharOf(v) >= SpecialCaseCountryIndexDelta then
      Some(Special(FinalCharOf(v) - SpecialCaseCountryIndexDelta))
    else None
  }

  /** The three simple-case fields occupy disjoint bits, so OR-ing them is
      adding them. */
  lemma SimpleOrIsSum(c: nat, d: nat, n: nat)
    requires c < 32 && d < 8
    ensures Or(Or(Or(SimpleCaseCountryMask, c), d * 32), n * 256) == c + 32 * d + 256 * n
  {
    assert Pow2(5) == 32 && Pow2(8) == 256;
    OrWithZero(c);
    var low := Or(SimpleCaseCountryMask, c);
    assert low == c;
    OrDisjoint(c, d, 5);
    var mid := Or(low, d * 32);
    assert mid == c + 32 * d;
    OrDisjoint(mid, n, 8);
  }

  lemma SimpleFields(c: int, d: int, n: int)
    requires 0 <= c < 32 && 0 <= d <= 3 && 0 <= n < 1000
    ensures var v := c + 32 * d + 256 * n;
      0 <= v < 0x4_0000 && TypeBitOf(v) == 0 && v != CountryWithoutCurrencyEntry
      && FinalCharOf(v) == c && DigitsOf(v) == d && NumericOf(v) == n
  {
    var v := c + 32 * d + 256 * n;
    DivOfSum(c, d + 8 * n, 32);
    assert FinalCharOf(v) == c;
    DivOfSum(d, 2 * n, 4);
    assert DigitsOf(v) == d;
    DivOfSum(c + 32 * d, 2 * n, 128);
    DivOfSum(0, n, 2);
    assert TypeBitOf(v) == 0;
    DivOfSum(c + 32 * d, n, 256);
    DivOfSum(n, 0, 1024);
    assert NumericOf(v) == n;
  }

  /** Division and remainder of `low + m * q` by m, for `low` below m. */
  lemma DivOfSum(low: int, q: int, m: int)
    requires 0 <= low < m
    ensures (low + m * q) / m == q && (low + m * q) % m == low
  {
    var a := low + m * q;
    var d, r := a / m, a % m;
    assert m * d + r == m * q + low;
    assert m * (d - q) == low - r;
    MulSign(m, d - q);
  }

  lemma MulSign(m: int, z: int)
    requires m > 0
    ensures z >= 1 ==> m * z >= m
    ensures z <= -1 ==> m * z <= -m
  {
    if z >= 1 {
      MulAtLeast(m, z);
    } else if z <= -1 {
      MulAtLeast(m, -z);
      assert m * z == -(m * (-z));
    }
  }

  lemma {:induction false} MulAtLeast(m: int, x: int)
    requires m > 0 && x >= 1
    ensures m * x >= m
    decreases x
  {
    if x > 1 {
      MulAtLeast(m, x - 1);
      assert m * x == m * (x - 1) + m;
    }
  }

  /** Bit 7 and index + 1 (1..30) are disjoint, so OR-ing them is adding. */
  lemma SpecialOrIsSum(i: int)
    requires 0 <= i < MaxSpecialCases
    ensures Or(SpecialCaseCountryMask, i + SpecialCaseCountryIndexDelta) == 128 + i + 1
  {
    assert Pow2(7) == 128;
    OrCommutes(SpecialCaseCountryMask, i + 1);
    OrDisjoint(i + 1, 1, 7);
  }

  /** A special-case entry sets bit 7 and keeps index + 1 in the low five
      bits, so it is neither 0x80 nor a simple entry. */
  lemma SpecialFields(i: int)
    requires 0 <= i < MaxSpecialCases
    ensures var v := 128 + i + 1;
      TypeBitOf(v) == 1 && FinalCharOf(v) == i + 1
      && v != CountryWithoutCurrencyEntry && v != InvalidCountryEntry
  {
  }

  /** Decoding a packed entry gives the entry back; so the four variants can
      never be confused, and two different entries never share a value. */
  lemma DecodePack(e: Entry)
    requires Valid(e)
    ensures Decode(Pack(e)) == Some(e)
  {
    match e
    case Simple(c, d, n) => SimpleFields(c, d, n);
    case Special(i) => SpecialFields(i);
    case Invalid =>
    case NoCurrency =>
  }

  /** The masked fields of a packed entry are the entry's own fields. */
  lemma PackFields(e: Entry)
    requires Valid(e)
    ensures e.Simple? ==>
      && FinalCharOf(Pack(e)) == e.finalChar && DigitsOf(Pack(e)) == e.digits
      && NumericOf(Pack(e)) == e.numeric
    ensures e.Special? ==> FinalCharOf(Pack(e)) == e.index + SpecialCaseCountryIndexDelta
  {
    match e
    case Simple(c, d, n) => SimpleFields(c, d, n);
    case Special(i) => SpecialFields(i);
    case Invalid =>
    case NoCurrency =>
  }

  lemma PackInjective(e1: Entry, e2: Entry)
    requires Valid(e1) && Valid(e2)
    ensures Pack(e1) == Pack(e2) <==> e1 == e2
  {
    DecodePack(e1);
    DecodePack(e2);
  }

  /** What each decoded variant says about the masked fields of the value. */
  lemma DecodeFields(v: int)
    requires Decode(v).Some?
    ensures Decode(v) == Some(Invalid) <==> v == InvalidCountryEntry
    ensures Decode(v) == Some(NoCurrency) <==> v == CountryWithoutCurrencyEntry
    ensures Decode(v).value.Simple? ==>
      && TypeBitOf(v) == 0 && v != InvalidCountryEntry && v != CountryWithoutCurrencyEntry
      && Decode(v).value == Simple(FinalCharOf(v), DigitsOf(v), NumericOf(v))
      && 0 <= DigitsOf(v) <= 3 && 0 <= NumericOf(v) < 1024
    ensures Decode(v).value.Special? ==>
      && TypeBitOf(v) == 1 && v != InvalidCountryEntry && v != CountryWithoutCurrencyEntry
      && Decode(v).value.index == FinalCharOf(v) - 1
  {
    assert TypeBitOf(InvalidCountryEntry) == 0 && TypeBitOf(CountryWithoutCurrencyEntry) == 1;
  }

  /** The simple-case packing as the source writes it, with the final-letter
      offset taken as `charAt(2) - 'A'` of whatever character is there. */
  function SimpleEntryAsWritten(finalChar: char, digits: int, numeric: int): (v: int)
    requires 0 <= digits <= 3 && 0 <= numeric < 1000
    ensures 'A' <= finalChar <= 'Z' ==>
      v == Pack(Simple(finalChar as int - 'A' as int, digits, numeric))
  {
    var offset := finalChar as int - 'A' as int;
    JavaOrIsInt32(SimpleCaseCountryMask, offset);
    var low := JavaOr(SimpleCaseCountryMask, offset);
    JavaOrIsInt32(low, digits * 32);
    var mid := JavaOr(low, digits * 32);
    if 'A' <= finalChar <= 'Z' then
      JavaPackOnLetters(offset, digits, numeric);
      JavaOr(mid, numeric * 256)
    else
      JavaOr(mid, numeric * 256)
  }

  /** For a letter offset all operands are non-negative, so Java's `|` chain
      is the packing of the simple entry. */
  lemma JavaPackOnLetters(c: int, d: int, n: int)
    requires 0 <= c < AToZ && 0 <= d <= 3 && 0 <= n < 1000
    ensures IsInt32(JavaOr(SimpleCaseCountryMask, c))
    ensures IsInt32(JavaOr(JavaOr(SimpleCaseCountryMask, c), d * 32))
    ensures JavaOr(JavaOr(JavaOr(SimpleCaseCountryMask, c), d * 32), n * 256) == Pack(Simple(c, d, n))
  {
    SimpleOrIsSum(c, d, n);
    OrWithZero(c);
    JavaOrOnNonNegative(SimpleCaseCountryMask, c);
    var low := JavaOr(SimpleCaseCountryMask, c);
    assert low == c;
    JavaOrOnNonNegative(low, d * 32);
    var mid := JavaOr(low, d * 32);
    assert mid == Or(c, d * 32);
    OrBound(c, d * 32, 7) by {
      Pow2Values();
    }
    JavaOrOnNonNegative(mid, n * 256);
  }

  /** A third character '5' gives the offset '5' - 'A' = -12, and -12 OR-ed with
      the digits and numeric fields stays -12: bit 7 is set, so the entry reads
      as special case 19 instead of a simple case. */
  lemma NonLetterFinalCharMisread(digits: int, numeric: int)
    requires 0 <= digits <= 3 && 0 <= numeric < 1000
    ensures SimpleEntryAsWritten('5', digits, numeric) == -12
    ensures Decode(-12) == Some(Special(19))
  {
    assert JavaOr(SimpleCaseCountryMask, -12) == -12 by {
      OrWithZero((-12) % TwoTo32);
    }
    MinusTwelveAbsorbs(digits);
    MinusTwelveAbsorbs(8 * numeric);
    assert numeric * 256 == (8 * numeric) * 32;
  }

  /** The masks of the source, applied with Java's `&`, read exactly the bit
      ranges that FinalCharOf, DigitsOf, TypeBitOf and NumericOf denote, for
      every int, negative ones included. The type mask is the OR of the simple
      and special masks. */
  lemma MasksReadFields(v: int)
    requires IsInt32(v)
    ensures JavaAnd(v, SimpleCaseCountryFinalCharMask) == FinalCharOf(v)
    ensures JavaAnd(v, SpecialCaseCountryIndexMask) == FinalCharOf(v)
    ensures JavaAnd(v, SimpleCaseCountryDefaultDigitsMask) == Shl(DigitsOf(v), SimpleCaseCountryDefaultDigitsShift)
    ensures JavaAnd(v, CountryTypeMask) == Shl(TypeBitOf(v), 7)
    ensures JavaAnd(v, NumericCodeMask) == Shl(NumericOf(v), NumericCodeShift)
    ensures CountryTypeMask == Or(SimpleCaseCountryMask, SpecialCaseCountryMask)
  {
    Pow2Values();
    assert Pow2(1) == 2 && Pow2(2) == 4 && Pow2(10) == 1024;
    ShlIsMul(1023, 8);
    MaskField(v, 5, 0, 0x1F);
    MaskField(v, 2, 5, 0x60);
    MaskField(v, 1, 7, 0x80);
    MaskField(v, 10, 8, 0x3FF00);
    OrWithZero(SpecialCaseCountryMask);
  }

  /** Java's `v & mask` for the mask of `width` one-bits at bit `s`, within the
      32 bits of an int: the field of v, in place. */
  lemma MaskField(v: int, width: nat, s: nat, mask: nat)
    requires IsInt32(v) && width + s <= 32 && mask < TwoTo31
    requires mask == Shl(Pow2(width) - 1, s)
    ensures JavaAnd(v, mask) == Shl(v / Pow2(s) % Pow2(width), s)
  {
    var u := v % TwoTo32;
    AndField(u, width, s);
    UnsignedViewField(v, width, s);
  }

  /** Bits below 32 are the same in an int and in its unsigned view. */
  lemma UnsignedViewField(v: int, width: nat, s: nat)
    requires width + s <= 32
    ensures (v % TwoTo32) / Pow2(s) % Pow2(width) == v / Pow2(s) % Pow2(width)
  {
    Pow2Split(s, width);
    UnsignedViewDivMod(v, Pow2(s), Pow2(width), Pow2(32 - width - s));
  }

  /** 2^32 = 2^s * (2^width * 2^(32 - width - s)). */
  lemma Pow2Split(s: nat, width: nat)
    requires width + s <= 32
    ensures TwoTo32 == Pow2(s) * (Pow2(width) * Pow2(32 - width - s))
  {
    Pow2Add(s, width);
    Pow2Add(s + width, 32 - width - s);
    Pow2Values();
    MulAssoc(Pow2(s), Pow2(width), Pow2(32 - width - s));
  }

  lemma UnsignedViewDivMod(v: int, d: int, e: int, k: int)
    requires d > 0 && e > 0 && TwoTo32 == d * (e * k)
    ensures (v % TwoTo32) / d % e == v / d % e
  {
    var u, q := v % TwoTo32, v / TwoTo32;
    assert v == u + d * (e * (k * q)) by {
      assert v == TwoTo32 * q + u;
      MulAssoc(d, e * k, q);
      MulAssoc(e, k, q);
    }
    FieldAboveMultiple(v, u, d, e, k * q);
  }

  /** Adding a multiple of d * e changes neither the quotient by d modulo e. */
  lemma FieldAboveMultiple(v: int, u: int, d: int, e: int, n: int)
    requires d > 0 && e > 0 && v == u + d * (e * n)
    ensures v / d % e == u / d % e
  {
    DivShift(u, d, e * n);
    ModShift(u / d, e, n);
  }

  lemma MulAssoc(a: int, b: int, c: int)
    ensures (a * b) * c == a * (b * c)
  {
  }

  /** Adding a multiple of d adds to the quotient and leaves the remainder. */
  lemma DivShift(x: int, d: int, m: int)
    requires d > 0
    ensures (x + d * m) / d == x / d + m
  {
    DivModUnique(x + d * m, d, x / d + m, x % d);
  }

  lemma ModShift(x: int, d: int, m: int)
    requires d > 0
    ensures (x + d * m) % d == x % d
  {
    DivModUnique(x + d * m, d, x / d + m, x % d);
  }
}

=== FILE: maintable.dfy ===
/** The main table: one packed entry for each of the 26 * 26 two-letter
    country codes, built in order AA, AB, ..., ZZ while the special-case tables
    fill up. */
module MainTable {
  import opened Results
  import opened Text
  import opened Layout
  import opened Registry
  import opened SpecialCases

  const TableSize: nat := AToZ * AToZ

  /** The country code of main-table slot `k`: first letter k / 26, second
      letter k % 26. */
  function CountryCode(k: nat): (cc: string)
    requires k < TableSize
    ensures |cc| == 2 && IsUpper(cc[0]) && IsUpper(cc[1])
  {
    [('A' as int + k / AToZ) as char, ('A' as int + k % AToZ) as char]
  }

  /** The slot of a two-letter country code, as both the generator and the
      runtime reader compute it. */
  function CountryIndex(cc: string): (k: int)
    requires |cc| == 2 && IsUpper(cc[0]) && IsUpper(cc[1])
    ensures 0 <= k < TableSize
  {
    (cc[0] as int - 'A' as int) * AToZ + (cc[1] as int - 'A' as int)
  }

  lemma CountryCodeIndex(k: nat)
    requires k < TableSize
    ensures CountryIndex(CountryCode(k)) == k
  {
  }

  lemma CountryIndexCode(cc: string)
    requires |cc| == 2 && IsUpper(cc[0]) && IsUpper(cc[1])
    ensures CountryCode(CountryIndex(cc)) == cc
  {
    var k := CountryIndex(cc);
    assert k / AToZ == cc[0] as int - 'A' as int;
    assert k % AToZ == cc[1] as int - 'A' as int;
  }

  /** A currency the main table can encode directly: three characters, the
      first two being the country code and the third a letter. Any other
      non-empty info goes to the special-case tables. */
  predicate IsSimpleInfo(cc: string, info: string)
    requires |cc| == 2
  {
    |info| == 3 && info[0] == cc[0] && info[1] == cc[1] && IsUpper(info[2])
  }

  /** The simple-case entry of a currency code, after the checks the source
      makes on it, in its order: listed code, digits in 0..3, numeric code in
      0..999. */
  function SimpleEntry(reg: Registry, code: string): (r: Result<Entry, Error>)
    requires |code| == 3 && IsUpper(code[2])
    ensures r.Success? <==>
      && CheckCurrencyCode(reg, code).Success?
      && 0 <= DefaultFractionDigits(reg, code) <= 3
      && NumericCode(reg, code).Success? && 0 <= NumericCode(reg, code).value < 1000
    ensures r.Success? ==>
      && Valid(r.value)
      && r.value == Simple(code[2] as int - 'A' as int, DefaultFractionDigits(reg, code), NumericCode(reg, code).value)
    ensures CheckCurrencyCode(reg, code).Success? && !(0 <= DefaultFractionDigits(reg, code) <= 3) ==>
      r == Failure(FractionDigitsOutOfRange(code))
  {
    var _ :- CheckCurrencyCode(reg, code);
    var digits := DefaultFractionDigits(reg, code);
    if digits < 0 || digits > 3 then Failure(FractionDigitsOutOfRange(code))
    else
      var numeric :- NumericCode(reg, code);
      if numeric < 0 || numeric >= 1000 then Failure(NumericCodeOutOfRange(code))
      else Success(Simple(code[2] as int - 'A' as int, digits, numeric))
  }

  /** What the entry of country `cc` says about its property value: absent,
      empty, of the simple form with this final letter, or a value whose
      special-case row has this index. */
  ghost predicate RowMeans(props: map<string, string>, t: SpecialTable, cc: string, e: Entry)
    requires |cc| == 2
  {
    match e
    case Invalid => cc !in props
    case NoCurrency => cc in props && props[cc] == ""
    case Simple(c, _, _) =>
      cc in props && IsSimpleInfo(cc, props[cc]) && c == props[cc][2] as int - 'A' as int
    case Special(i) =>
      && NeedsSpecialRow(props, cc)
      && 0 <= i < |t.keys| && i < |t.cases| && t.keys[i] == props[cc]
  }

  /** A simple entry is the simple-case entry of its country's code: the
      code passed the checks, and the digits and numeric code are its own. */
  ghost predicate SimpleRowRight(reg: Registry, props: map<string, string>, cc: string, e: Entry)
    requires |cc| == 2
  {
    e.Simple? ==> cc in props && IsSimpleInfo(cc, props[cc]) && SimpleEntry(reg, props[cc]) == Success(e)
  }

  ghost predicate NeedsSpecialRow(props: map<string, string>, cc: string)
    requires |cc| == 2
  {
    cc in props && props[cc] != "" && !IsSimpleInfo(cc, props[cc])
  }

  /** The meaning of a row survives growing the special-case tables. */
  lemma RowMeansExtends(reg: Registry, timeOf: TimeParser, props: map<string, string>,
                        t1: SpecialTable, t2: SpecialTable, cc: string, e: Entry)
    requires |cc| == 2 && Extends(t1, t2)
    requires RowMeans(props, t1, cc, e)
    ensures RowMeans(props, t2, cc, e)
  {
    if e.Special? {
      ExtendsKey(t1, t2, e.index);
    }
  }

  /** The entry for one country, interning a special case when needed. */
  function EntryFor(reg: Registry, timeOf: TimeParser, props: map<string, string>,
                    cc: string, t: SpecialTable): (r: Result<(Entry, SpecialTable), Error>)
    requires |cc| == 2 && Shape(t)
    ensures r.Success? ==>
      && Valid(r.value.0) && Shape(r.value.1) && Extends(t, r.value.1)
      && (RowsMade(reg, timeOf, t) ==> RowsMade(reg, timeOf, r.value.1))
      && RowMeans(props, r.value.1, cc, r.value.0)
      && SimpleRowRight(reg, props, cc, r.value.0)
  {
    if cc !in props then Success((Invalid, t))
    else
      var info := props[cc];
      if |info| == 0 then Success((NoCurrency, t))
      else if IsSimpleInfo(cc, info) then
        var e :- SimpleEntry(reg, info);
        Success((e, t))
      else
        var p :- Intern(reg, timeOf, t, info);
        Success((Special(p.0), p.1))
  }

  /** The entries of slots k..675, in order, threading the special-case tables. */
  function BuildRows(reg: Registry, timeOf: TimeParser, props: map<string, string>,
                     k: nat, t: SpecialTable): (r: Result<(seq<Entry>, SpecialTable), Error>)
    requires k <= TableSize && Shape(t)
    ensures r.Success? ==>
      && |r.value.0| == TableSize - k
      && Shape(r.value.1) && Extends(t, r.value.1)
      && (RowsMade(reg, timeOf, t) ==> RowsMade(reg, timeOf, r.value.1))
      && (forall j :: 0 <= j < |r.value.0| ==> SlotRight(reg, timeOf, props, r.value.1, k, r.value.0, j))
      && KeySet(r.value.1.keys) == KeySet(t.keys) + SpecialInfosFrom(props, k)
    decreases TableSize - k
  {
    if k == TableSize then
      assert SpecialInfosFrom(props, k) == {};
      Success(([], t))
    else
      var p :- EntryFor(reg, timeOf, props, CountryCode(k), t);
      var q :- BuildRows(reg, timeOf, props, k + 1, p.1);
      PrependRow(reg, timeOf, props, t, p.1, q.1, k, k + 1, p.0, q.0);
      EntryForKeys(reg, timeOf, props, k, t);
      SpecialInfosStep(props, k);
      UnionStep(KeySet(q.1.keys), KeySet(p.1.keys), KeySet(t.keys),
                SlotInfo(props, k), SpecialInfosFrom(props, k + 1), SpecialInfosFrom(props, k));
      Success(([p.0] + q.0, q.1))
  }

  /** Entry j of `rows`, the entry of slot k + j, is valid, means what that
      country's value says and, if simple, is its code's simple-case entry. */
  ghost predicate SlotRight(reg: Registry, timeOf: TimeParser, props: map<string, string>,
                            t: SpecialTable, k: nat, rows: seq<Entry>, j: nat)
  {
    && j < |rows| && k + j < TableSize
    && Valid(rows[j])
    && RowMeans(props, t, CountryCode(k + j), rows[j])
    && SimpleRowRight(reg, props, CountryCode(k + j), rows[j])
  }

  lemma PrependRow(reg: Registry, timeOf: TimeParser, props: map<string, string>,
                   t0: SpecialTable, t1: SpecialTable, t2: SpecialTable, k: nat, next: nat, e: Entry, rest: seq<Entry>)
    requires k < TableSize && next == k + 1 && next + |rest| == TableSize && Extends(t0, t1) && Extends(t1, t2)
    requires Valid(e) && RowMeans(props, t1, CountryCode(k), e) && SimpleRowRight(reg, props, CountryCode(k), e)
    requires forall j :: 0 <= j < |rest| ==> SlotRight(reg, timeOf, props, t2, next, rest, j)
    ensures Extends(t0, t2)
    ensures forall j :: 0 <= j < 1 + |rest| ==> SlotRight(reg, timeOf, props, t2, k, [e] + rest, j)
  {
    RowMeansExtends(reg, timeOf, props, t1, t2, CountryCode(k), e);
    ExtendsTransitive(t0, t1, t2);
    forall j | 0 <= j < 1 + |rest|
      ensures SlotRight(reg, timeOf, props, t2, k, [e] + rest, j)
    {
      if j > 0 {
        assert SlotRight(reg, timeOf, props, t2, next, rest, j - 1);
        assert ([e] + rest)[j] == rest[j - 1] && k + j == k + 1 + (j - 1);
      }
    }
  }

  /** The main table as entries, and the special-case tables they refer to. */
  datatype MainTables = MainTables(entries: seq<Entry>, special: SpecialTable)

  /** buildMainAndSpecialCaseTables: every slot's entry, and the special-case
      tables, each of whose rows is the one its key makes. */
  function BuildMain(reg: Registry, timeOf: TimeParser, props: map<string, string>)
    : (r: Result<MainTables, Error>)
    ensures r.Success? ==> Built(reg, timeOf, props, r.value)
  {
    var p :- BuildRows(reg, timeOf, props, 0, EmptyTable);
    SlotsValid(reg, timeOf, props, p.1, p.0);
    assert KeySet(EmptyTable.keys) == {};
    Success(MainTables(p.0, p.1))
  }

  lemma SlotsValid(reg: Registry, timeOf: TimeParser, props: map<string, string>, t: SpecialTable, rows: seq<Entry>)
    requires forall j :: 0 <= j < |rows| ==> SlotRight(reg, timeOf, props, t, 0, rows, j)
    ensures forall j :: 0 <= j < |rows| ==> Valid(rows[j])
  {
    forall j | 0 <= j < |rows|
      ensures Valid(rows[j])
    {
      assert SlotRight(reg, timeOf, props, t, 0, rows, j);
    }
  }

  /** What a successful build guarantees: one valid entry per slot meaning
      what the slot's property value says, simple entries equal to their
      code's simple-case entry, and well-formed special-case tables whose keys
      are exactly the values that need a special-case row. */
  ghost predicate Built(reg: Registry, timeOf: TimeParser, props: map<string, string>, m: MainTables) {
    && |m.entries| == TableSize
    && Wf(reg, timeOf, m.special)
    && (forall k :: 0 <= k < TableSize ==> Valid(m.entries[k]))
    && (forall k :: 0 <= k < TableSize ==> SlotRight(reg, timeOf, props, m.special, 0, m.entries, k))
    && KeySet(m.special.keys) == SpecialInfos(props)
  }

  /** The int array the generator writes: each entry packed. */
  function MainInts(m: MainTables): (table: seq<int>)
    requires forall k :: 0 <= k < |m.entries| ==> Valid(m.entries[k])
    ensures |table| == |m.entries|
    ensures forall k :: 0 <= k < |table| ==> table[k] == Pack(m.entries[k])
    ensures forall k :: 0 <= k < |table| ==> 0 <= table[k] < 0x4_0000
  {
    seq(|m.entries|, k requires 0 <= k < |m.entries| => Pack(m.entries[k]))
  }

  /** Each int of the packed table reads back as the entry it packs. */
  lemma MainIntsDecode(m: MainTables)
    requires forall k :: 0 <= k < |m.entries| ==> Valid(m.entries[k])
    ensures forall k :: 0 <= k < |m.entries| ==> Decode(MainInts(m)[k]) == Some(m.entries[k])
  {
    forall k | 0 <= k < |m.entries|
      ensures Decode(MainInts(m)[k]) == Some(m.entries[k])
    {
      DecodePack(m.entries[k]);
    }
  }

  /** A built main table agrees with the property table country by country:
      an absent country reads as invalid, an empty value as no currency, a
      value of the simple form as its simple entry with digits in 0..3 and a
      numeric code in 0..999, and anything else as the special-case row made
      from exactly that value. */
  lemma MainTableReadsBack(reg: Registry, timeOf: TimeParser, props: map<string, string>,
                           m: MainTables, cc: string)
    requires Built(reg, timeOf, props, m)
    requires |cc| == 2 && IsUpper(cc[0]) && IsUpper(cc[1])
    ensures EntryReadsBack(reg, timeOf, props, m.special, cc, MainInts(m)[CountryIndex(cc)])
  {
    var k := CountryIndex(cc);
    CountryIndexCode(cc);
    assert SlotRight(reg, timeOf, props, m.special, 0, m.entries, k);
    RowMeansReadsBack(reg, timeOf, props, m.special, cc, m.entries[k]);
  }

  /** The entry `v` of country `cc`, read with the masks the runtime uses. */
  ghost predicate EntryReadsBack(reg: Registry, timeOf: TimeParser, props: map<string, string>,
                                 t: SpecialTable, cc: string, v: int)
    requires |cc| == 2
  {
    && EntryKind(props, cc, v)
    && SimpleFieldsReadBack(reg, props, cc, v)
    && SpecialRowReadsBack(reg, timeOf, props, t, cc, v)
  }

  /** Which of the four kinds the entry is, and the final letter of a simple one. */
  ghost predicate EntryKind(props: map<string, string>, cc: string, v: int)
    requires |cc| == 2
  {
    && (cc !in props <==> v == InvalidCountryEntry)
    && (cc in props && props[cc] == "" <==> v == CountryWithoutCurrencyEntry)
    && (cc in props && IsSimpleInfo(cc, props[cc]) ==>
          && TypeBitOf(v) == 0 && v != InvalidCountryEntry
          && FinalCharOf(v) == props[cc][2] as int - 'A' as int)
    && (NeedsSpecialRow(props, cc) ==> TypeBitOf(v) == 1 && v != CountryWithoutCurrencyEntry)
  }

  /** A simple entry holds the code's default digits and numeric code. */
  ghost predicate SimpleFieldsReadBack(reg: Registry, props: map<string, string>, cc: string, v: int)
    requires |cc| == 2
  {
    cc in props && IsSimpleInfo(cc, props[cc]) ==>
      && DigitsOf(v) == DefaultFractionDigits(reg, props[cc])
      && NumericCode(reg, props[cc]) == Success(NumericOf(v))
      && 0 <= DefaultFractionDigits(reg, props[cc]) <= 3
      && 0 <= NumericOf(v) < 1000
  }

  /** A special entry points at the row its property value makes. */
  ghost predicate SpecialRowReadsBack(reg: Registry, timeOf: TimeParser, props: map<string, string>,
                                      t: SpecialTable, cc: string, v: int)
    requires |cc| == 2
  {
    NeedsSpecialRow(props, cc) ==>
      && 1 <= FinalCharOf(v) <= |t.cases|
      && MakeRecord(reg, timeOf, props[cc]) == Success(t.cases[FinalCharOf(v) - 1])
  }

  /** An entry is valid and simple exactly when its property value has the
      simple form. */
  lemma SimpleSlot(reg: Registry, timeOf: TimeParser, props: map<string, string>, m: MainTables, cc: string)
    requires Built(reg, timeOf, props, m)
    requires |cc| == 2 && IsUpper(cc[0]) && IsUpper(cc[1])
    ensures var v := MainInts(m)[CountryIndex(cc)];
      && (v != InvalidCountryEntry && TypeBitOf(v) == 0 <==> cc in props && IsSimpleInfo(cc, props[cc]))
      && (cc in props && IsSimpleInfo(cc, props[cc]) ==> FinalCharOf(v) == props[cc][2] as int - 'A' as int)
  {
    var v := MainInts(m)[CountryIndex(cc)];
    MainTableReadsBack(reg, timeOf, props, m, cc);
    assert EntryKind(props, cc, v);
    KindSimpleIff(props, cc, v);
  }

  /** An entry whose property value is not of the simple form is a special
      entry pointing at the row that value makes. */
  lemma SpecialSlot(reg: Registry, timeOf: TimeParser, props: map<string, string>, m: MainTables, cc: string)
    requires Built(reg, timeOf, props, m)
    requires |cc| == 2 && IsUpper(cc[0]) && IsUpper(cc[1])
    requires NeedsSpecialRow(props, cc)
    ensures var v := MainInts(m)[CountryIndex(cc)];
      && TypeBitOf(v) == 1 && 1 <= FinalCharOf(v) <= |m.special.cases|
      && MakeRecord(reg, timeOf, props[cc]) == Success(m.special.cases[FinalCharOf(v) - 1])
  {
    var v := MainInts(m)[CountryIndex(cc)];
    MainTableReadsBack(reg, timeOf, props, m, cc);
    assert EntryKind(props, cc, v);
    assert SpecialRowReadsBack(reg, timeOf, props, m.special, cc, v);
  }

  lemma KindSimpleIff(props: map<string, string>, cc: string, v: int)
    requires |cc| == 2 && EntryKind(props, cc, v)
    ensures v != InvalidCountryEntry && TypeBitOf(v) == 0 <==> cc in props && IsSimpleInfo(cc, props[cc])
  {
    assert TypeBitOf(CountryWithoutCurrencyEntry) == 1;
  }

  /** What a row means is what its packed int reads back as. */
  lemma RowMeansReadsBack(reg: Registry, timeOf: TimeParser, props: map<string, string>,
                          t: SpecialTable, cc: string, e: Entry)
    requires |cc| == 2 && Wf(reg, timeOf, t) && Valid(e)
    requires RowMeans(props, t, cc, e) && SimpleRowRight(reg, props, cc, e)
    ensures EntryReadsBack(reg, timeOf, props, t, cc, Pack(e))
  {
    RowMeansKind(reg, timeOf, props, t, cc, e);
    RowMeansSimple(reg, timeOf, props, t, cc, e);
    RowMeansSpecial(reg, timeOf, props, t, cc, e);
  }

  lemma RowMeansKind(reg: Registry, timeOf: TimeParser, props: map<string, string>,
                     t: SpecialTable, cc: string, e: Entry)
    requires |cc| == 2 && Valid(e) && RowMeans(props, t, cc, e)
    ensures EntryKind(props, cc, Pack(e))
  {
    match e
    case Invalid =>
    case NoCurrency =>
    case Simple(c, d, n) => SimpleFields(c, d, n);
    case Special(i) =>
  }

  lemma RowMeansSimple(reg: Registry, timeOf: TimeParser, props: map<string, string>,
                       t: SpecialTable, cc: string, e: Entry)
    requires |cc| == 2 && Valid(e) && RowMeans(props, t, cc, e) && SimpleRowRight(reg, props, cc, e)
    ensures SimpleFieldsReadBack(reg, props, cc, Pack(e))
  {
    match e
    case Invalid =>
    case NoCurrency =>
    case Simple(c, d, n) => SimpleFields(c, d, n);
    case Special(i) =>
  }

  lemma RowMeansSpecial(reg: Registry, timeOf: TimeParser, props: map<string, string>,
                        t: SpecialTable, cc: string, e: Entry)
    requires |cc| == 2 && RowsMade(reg, timeOf, t) && Valid(e) && RowMeans(props, t, cc, e)
    ensures SpecialRowReadsBack(reg, timeOf, props, t, cc, Pack(e))
  {
    match e
    case Invalid =>
    case NoCurrency =>
    case Simple(c, d, n) =>
    case Special(i) =>
      SpecialRowMade(reg, timeOf, props, t, cc, i);
      SpecialRowAt(t, i, MakeRecord(reg, timeOf, props[cc]));
      assert SpecialRowReadsBack(reg, timeOf, props, t, cc, Pack(Special(i)));
      assert Pack(e) == Pack(Special(i));
  }

  /** Row i of the special-case tables is the row a special entry of index i
      points at through its low five bits. */
  lemma SpecialRowAt(t: SpecialTable, i: int, row: Result<SpecialCase, Error>)
    requires 0 <= i < MaxSpecialCases && i < |t.cases| && row == Success(t.cases[i])
    ensures 1 <= FinalCharOf(Pack(Special(i))) <= |t.cases|
    ensures row == Success(t.cases[FinalCharOf(Pack(Special(i))) - 1])
  {
    SpecialFields(i);
  }

  lemma SpecialRowMade(reg: Registry, timeOf: TimeParser, props: map<string, string>,
                       t: SpecialTable, cc: string, i: int)
    requires |cc| == 2 && RowsMade(reg, timeOf, t)
    requires NeedsSpecialRow(props, cc) && 0 <= i < |t.keys| && t.keys[i] == props[cc]
    ensures 0 <= i < |t.cases| && MakeRecord(reg, timeOf, props[cc]) == Success(t.cases[i])
  {
    assert RowMade(reg, timeOf, t, i);
  }

  /** Countries whose property values are equal and not of the simple form
      share one special-case entry. */
  lemma SharedSpecialRow(reg: Registry, timeOf: TimeParser, props: map<string, string>, m: MainTables,
                          k1: nat, k2: nat)
    requires Built(reg, timeOf, props, m)
    requires k1 < TableSize && k2 < TableSize
    requires NeedsSpecialRow(props, CountryCode(k1)) && NeedsSpecialRow(props, CountryCode(k2))
    requires props[CountryCode(k1)] == props[CountryCode(k2)]
    ensures TypeBitOf(MainInts(m)[k1]) == 1 && MainInts(m)[k1] == MainInts(m)[k2]
  {
    var e1, e2 := m.entries[k1], m.entries[k2];
    assert SlotRight(reg, timeOf, props, m.special, 0, m.entries, k1);
    assert SlotRight(reg, timeOf, props, m.special, 0, m.entries, k2);
    assert e1.Special? && e2.Special?;
    assert m.special.keys[e1.index] == m.special.keys[e2.index];
    assert e1 == e2;
    assert MainInts(m)[k1] == Pack(e1);
  }

  /** The property value of one country is acceptable: absent, empty, a simple
      code that passes the simple-case checks, or a value that makes a
      special-case row. */
  ghost predicate GoodCountry(reg: Registry, timeOf: TimeParser, props: map<string, string>, cc: string)
    requires |cc| == 2
  {
    || cc !in props
    || props[cc] == ""
    || (IsSimpleInfo(cc, props[cc]) && SimpleEntry(reg, props[cc]).Success?)
    || (!IsSimpleInfo(cc, props[cc]) && MakeRecord(reg, timeOf, props[cc]).Success?)
  }

  ghost predicate AllGood(reg: Registry, timeOf: TimeParser, props: map<string, string>) {
    forall k :: 0 <= k < TableSize ==> GoodAt(reg, timeOf, props, k)
  }

  ghost predicate GoodAt(reg: Registry, timeOf: TimeParser, props: map<string, string>, k: nat)
    requires k < TableSize
  {
    GoodCountry(reg, timeOf, props, CountryCode(k))
  }

  /** The distinct property values that need a special-case row. */
  ghost function SpecialInfos(props: map<string, string>): set<string> {
    SpecialInfosFrom(props, 0)
  }

  /** The distinct values of slots k..675 that need a special-case row. */
  ghost function SpecialInfosFrom(props: map<string, string>, k: nat): set<string> {
    set j | k <= j < TableSize && NeedsSpecialRow(props, CountryCode(j)) :: props[CountryCode(j)]
  }

  /** Slot k contributes its own value, if it needs a row, to the values of
      slots k..675. */
  lemma SpecialInfosStep(props: map<string, string>, k: nat)
    requires k < TableSize
    ensures SpecialInfosFrom(props, k) ==
      SlotInfo(props, k) + SpecialInfosFrom(props, k + 1)
  {
    var cc := CountryCode(k);
    forall x | x in SpecialInfosFrom(props, k)
      ensures x in SlotInfo(props, k) + SpecialInfosFrom(props, k + 1)
    {
      var j :| k <= j < TableSize && NeedsSpecialRow(props, CountryCode(j)) && props[CountryCode(j)] == x;
      if j > k {
        assert x in SpecialInfosFrom(props, k + 1);
      }
    }
  }

  /** The value of slot k when it needs a special-case row; nothing otherwise. */
  ghost function SlotInfo(props: map<string, string>, k: nat): set<string>
    requires k < TableSize
  {
    if NeedsSpecialRow(props, CountryCode(k)) then {props[CountryCode(k)]} else {}
  }

  /** The values needing a special-case row, in the order the build first
      meets them: slots k..675 in turn, each new value appended to `keys`. So
      the row of a value is numbered by the distinct values met before it. */
  ghost function FirstSeenFrom(props: map<string, string>, k: nat, keys: seq<string>): seq<string>
    requires k <= TableSize
    decreases TableSize - k
  {
    if k == TableSize then keys
    else
      var cc := CountryCode(k);
      FirstSeenFrom(props, k + 1, if NeedsSpecialRow(props, cc) then AddKey(keys, props[cc]) else keys)
  }

  /** Slots k..675 add their rows in first-seen order. */
  lemma {:induction false} BuildRowsInOrder(reg: Registry, timeOf: TimeParser, props: map<string, string>,
                                            k: nat, t: SpecialTable)
    requires k <= TableSize && Shape(t)
    ensures RowsInOrder(reg, timeOf, props, k, t)
    decreases TableSize - k
  {
    if k < TableSize {
      var p := EntryFor(reg, timeOf, props, CountryCode(k), t);
      if p.Success? {
        BuildRowsInOrder(reg, timeOf, props, k + 1, p.value.1);
      }
      InOrderAt(reg, timeOf, props, k, t);
    } else {
      InOrderAtEnd(reg, timeOf, props, t);
    }
  }

  /** A successful build of slots k..675 leaves the keys of `t` followed by
      the new values in first-seen order. */
  ghost predicate RowsInOrder(reg: Registry, timeOf: TimeParser, props: map<string, string>,
                              k: nat, t: SpecialTable)
    requires k <= TableSize && Shape(t)
  {
    var b := BuildRows(reg, timeOf, props, k, t);
    b.Success? ==> b.value.1.keys == FirstSeenFrom(props, k, t.keys)
  }

  /** Order after slot k, from the table slot k leaves, gives order from k. */
  lemma InOrderAt(reg: Registry, timeOf: TimeParser, props: map<string, string>, k: nat, t: SpecialTable)
    requires k < TableSize && Shape(t)
    requires var p := EntryFor(reg, timeOf, props, CountryCode(k), t);
      p.Success? ==> RowsInOrder(reg, timeOf, props, k + 1, p.value.1)
    ensures RowsInOrder(reg, timeOf, props, k, t)
  {
    var cc := CountryCode(k);
    if EntryFor(reg, timeOf, props, cc, t).Success? && NeedsSpecialRow(props, cc) {
      InternAddsKey(reg, timeOf, t, props[cc]);
    }
  }

  lemma InOrderAtEnd(reg: Registry, timeOf: TimeParser, props: map<string, string>, t: SpecialTable)
    requires Shape(t)
    ensures RowsInOrder(reg, timeOf, props, TableSize, t)
  {
  }

  /** The special-case rows of a successful build come in the order the
      countries AA..ZZ first meet their values; with the pointers of
      `SpecialSlot` this fixes every special entry. */
  lemma SpecialRowsInOrder(reg: Registry, timeOf: TimeParser, props: map<string, string>)
    ensures BuildMain(reg, timeOf, props).Success? ==>
      BuildMain(reg, timeOf, props).value.special.keys == FirstSeenFrom(props, 0, [])
  {
    BuildRowsInOrder(reg, timeOf, props, 0, EmptyTable);
  }

  lemma UnionStep<T>(z: set<T>, x: set<T>, y: set<T>, s1: set<T>, s2: set<T>, s3: set<T>)
    requires x == y + s1 && z == x + s2 && s3 == s1 + s2
    ensures z == y + s3
  {
  }

  /** One country adds its value to the keys exactly when it needs a row. */
  lemma EntryForKeys(reg: Registry, timeOf: TimeParser, props: map<string, string>, k: nat, t: SpecialTable)
    requires k < TableSize && Shape(t)
    requires EntryFor(reg, timeOf, props, CountryCode(k), t).Success?
    ensures KeySet(EntryFor(reg, timeOf, props, CountryCode(k), t).value.1.keys) == KeySet(t.keys) + SlotInfo(props, k)
  {
    var cc := CountryCode(k);
    if NeedsSpecialRow(props, cc) {
      InternKeySet(reg, timeOf, t, props[cc]);
    }
  }

  /** Interning adds its string to the key set, and nothing else. */
  lemma InternKeySet(reg: Registry, timeOf: TimeParser, t: SpecialTable, info: string)
    requires Intern(reg, timeOf, t, info).Success?
    ensures KeySet(Intern(reg, timeOf, t, info).value.1.keys) == KeySet(t.keys) + {info}
  {
    var i := IndexIn(t.keys, info);
    if i >= 0 {
      assert t.keys[i] == info;
    } else {
      var keys := t.keys + [info];
      forall x | x in KeySet(keys)
        ensures x in KeySet(t.keys) + {info}
      {
        var j :| 0 <= j < |keys| && keys[j] == x;
        if j < |t.keys| {
          assert t.keys[j] == x;
        }
      }
      forall x | x in KeySet(t.keys)
        ensures x in KeySet(keys)
      {
        var j :| 0 <= j < |t.keys| && t.keys[j] == x;
        assert keys[j] == x;
      }
      assert keys[|t.keys|] == info;
    }
  }

  /** A built table has exactly one special-case row per distinct value that
      needs one. */
  lemma SpecialCount(reg: Registry, timeOf: TimeParser, props: map<string, string>, m: MainTables)
    requires Built(reg, timeOf, props, m)
    ensures |m.special.cases| == |SpecialInfos(props)|
  {
    KeySetCard(m.special.keys);
  }

  /** The main table is built exactly when every country's value is
      acceptable and at most 30 distinct values need a special-case row. */
  lemma BuildMainSucceedsIff(reg: Registry, timeOf: TimeParser, props: map<string, string>)
    ensures BuildMain(reg, timeOf, props).Success? <==>
      AllGood(reg, timeOf, props) && |SpecialInfos(props)| <= MaxSpecialCases
  {
    if BuildMain(reg, timeOf, props).Success? {
      var m := BuildMain(reg, timeOf, props).value;
      assert Built(reg, timeOf, props, m);
      forall k | 0 <= k < TableSize
        ensures GoodAt(reg, timeOf, props, k)
        ensures NeedsSpecialRow(props, CountryCode(k)) ==> props[CountryCode(k)] in KeySet(m.special.keys)
      {
        assert SlotRight(reg, timeOf, props, m.special, 0, m.entries, k);
        RowMeansGood(reg, timeOf, props, m.special, CountryCode(k), m.entries[k]);
      }
      SubsetCard(SpecialInfos(props), KeySet(m.special.keys));
      KeySetCard(m.special.keys);
    } else if AllGood(reg, timeOf, props) && |SpecialInfos(props)| <= MaxSpecialCases {
      SpecialInfosCover(props);
      BuildRowsSucceeds(reg, timeOf, props, 0, EmptyTable, SpecialInfos(props));
    }
  }

  /** Every value in `infos` that some country needs a special-case row for. */
  ghost predicate Covers(props: map<string, string>, infos: set<string>) {
    forall k :: 0 <= k < TableSize ==> CoveredAt(props, infos, k)
  }

  ghost predicate CoveredAt(props: map<string, string>, infos: set<string>, k: nat)
    requires k < TableSize
  {
    NeedsSpecialRow(props, CountryCode(k)) ==> props[CountryCode(k)] in infos
  }

  lemma SpecialInfosCover(props: map<string, string>)
    ensures Covers(props, SpecialInfos(props))
  {
    forall k | 0 <= k < TableSize
      ensures CoveredAt(props, SpecialInfos(props), k)
    {
    }
  }

  lemma RowMeansGood(reg: Registry, timeOf: TimeParser, props: map<string, string>,
                     t: SpecialTable, cc: string, e: Entry)
    requires |cc| == 2 && Wf(reg, timeOf, t) && Valid(e)
    requires RowMeans(props, t, cc, e) && SimpleRowRight(reg, props, cc, e)
    ensures GoodCountry(reg, timeOf, props, cc)
    ensures NeedsSpecialRow(props, cc) ==> props[cc] in KeySet(t.keys)
  {
    if e.Special? {
      assert RowMade(reg, timeOf, t, e.index);
      assert t.keys[e.index] in KeySet(t.keys);
    }
  }

  lemma {:induction false} BuildRowsSucceeds(reg: Registry, timeOf: TimeParser, props: map<string, string>,
                                             k: nat, t: SpecialTable, infos: set<string>)
    requires k <= TableSize && Shape(t)
    requires AllGood(reg, timeOf, props) && Covers(props, infos) && |infos| <= MaxSpecialCases
    requires KeysIn(t, infos)
    ensures BuildRows(reg, timeOf, props, k, t).Success?
    decreases TableSize - k
  {
    if k < TableSize {
      var t1 := StepTable(reg, timeOf, props, k, t, infos);
      BuildRowsSucceeds(reg, timeOf, props, k + 1, t1, infos);
    } else {
      BuildRowsEnd(reg, timeOf, props, t);
    }
  }

  lemma BuildRowsEnd(reg: Registry, timeOf: TimeParser, props: map<string, string>, t: SpecialTable)
    requires Shape(t)
    ensures BuildRows(reg, timeOf, props, TableSize, t) == Success(([], t))
  {
  }

  /** The table after slot k, when slot k's entry succeeds: rows k.. succeed
      as soon as rows k+1.. do from there. */
  lemma StepTable(reg: Registry, timeOf: TimeParser, props: map<string, string>, k: nat, t: SpecialTable,
                  infos: set<string>)
    returns (t1: SpecialTable)
    requires k < TableSize && Shape(t)
    requires AllGood(reg, timeOf, props) && Covers(props, infos) && |infos| <= MaxSpecialCases
    requires KeysIn(t, infos)
    ensures Shape(t1) && KeysIn(t1, infos)
    ensures BuildRows(reg, timeOf, props, k + 1, t1).Success? ==> BuildRows(reg, timeOf, props, k, t).Success?
  {
    EntryForSucceeds(reg, timeOf, props, k, t, infos);
    var e := EntryFor(reg, timeOf, props, CountryCode(k), t);
    assert e.Success?;
    t1 := e.value.1;
    if BuildRows(reg, timeOf, props, k + 1, t1).Success? {
      BuildRowsStep(reg, timeOf, props, k, t);
    }
  }

  /** One step of BuildRows: the row of slot k succeeds and so do the rest. */
  lemma BuildRowsStep(reg: Registry, timeOf: TimeParser, props: map<string, string>, k: nat, t: SpecialTable)
    requires k < TableSize && Shape(t)
    requires EntryFor(reg, timeOf, props, CountryCode(k), t).Success?
    requires BuildRows(reg, timeOf, props, k + 1, EntryFor(reg, timeOf, props, CountryCode(k), t).value.1).Success?
    ensures BuildRows(reg, timeOf, props, k, t).Success?
  {
  }

  lemma EntryForSucceeds(reg: Registry, timeOf: TimeParser, props: map<string, string>,
                         k: nat, t: SpecialTable, infos: set<string>)
    requires k < TableSize && Shape(t)
    requires AllGood(reg, timeOf, props) && Covers(props, infos) && |infos| <= MaxSpecialCases
    requires KeysIn(t, infos)
    ensures var e := EntryFor(reg, timeOf, props, CountryCode(k), t);
      e.Success? && KeysIn(e.value.1, infos)
  {
    var cc := CountryCode(k);
    assert GoodAt(reg, timeOf, props, k);
    if cc !in props || props[cc] == "" {
    } else if IsSimpleInfo(cc, props[cc]) {
      assert SimpleEntry(reg, props[cc]).Success?;
    } else {
      var info := props[cc];
      assert MakeRecord(reg, timeOf, info).Success?;
      assert CoveredAt(props, infos, k);
      InternSucceeds(reg, timeOf, t, info, infos);
    }
  }

  /** Interning a value that makes a row succeeds while the table's keys and
      the value all lie in a set of at most 30 values. */
  lemma InternSucceeds(reg: Registry, timeOf: TimeParser, t: SpecialTable, info: string, infos: set<string>)
    requires Shape(t) && KeysIn(t, infos) && info in infos && |infos| <= MaxSpecialCases
    requires MakeRecord(reg, timeOf, info).Success?
    ensures Intern(reg, timeOf, t, info).Success?
    ensures KeysIn(Intern(reg, timeOf, t, info).value.1, infos)
  {
    if IndexIn(t.keys, info) < 0 {
      IndexInFirst(t.keys, info);
      KeySetCard(t.keys);
      assert info !in KeySet(t.keys);
      SubsetCard(KeySet(t.keys) + {info}, infos);
      assert |t.cases| < MaxSpecialCases;
      var keys := (t.keys + [info]);
      assert forall i :: 0 <= i < |keys| ==> keys[i] in infos;
    }
  }

  /** Every key of the tables lies in `infos`. */
  ghost predicate KeysIn(t: SpecialTable, infos: set<string>) {
    forall i :: 0 <= i < |t.keys| ==> t.keys[i] in infos
  }

  ghost function KeySet(keys: seq<string>): set<string> {
    set i | 0 <= i < |keys| :: keys[i]
  }

  /** A sequence has no more distinct elements than positions, and exactly as
      many when no element repeats. */
  lemma {:induction false} KeySetCard(keys: seq<string>)
    ensures |KeySet(keys)| <= |keys|
    ensures KeysApart(keys) ==> |KeySet(keys)| == |keys|
  {
    if |keys| > 0 {
      var init := keys[..|keys| - 1];
      var last := keys[|keys| - 1];
      KeySetCard(init);
      assert KeySet(keys) == KeySet(init) + {last} by {
        forall x | x in KeySet(keys)
          ensures x in KeySet(init) + {last}
        {
          var i :| 0 <= i < |keys| && keys[i] == x;
          if i < |init| {
            assert init[i] == x;
          }
        }
        forall x | x in KeySet(init)
          ensures x in KeySet(keys)
        {
          var i :| 0 <= i < |init| && init[i] == x;
          assert keys[i] == x;
        }
      }
      if KeysApart(keys) {
        assert KeysApart(init) by {
          forall i, j | 0 <= i < j < |init|
            ensures init[i] != init[j]
          {
            assert init[i] == keys[i] && init[j] == keys[j];
          }
        }
        assert last !in KeySet(init) by {
          forall i | 0 <= i < |init|
            ensures init[i] != last
          {
            assert init[i] == keys[i];
          }
        }
      }
    }
  }

  lemma {:induction false} SubsetCard<T>(a: set<T>, b: set<T>)
    requires a <= b
    ensures |a| <= |b|
    decreases |b|
  {
    if a != {} {
      var x :| x in a;
      SubsetCard(a - {x}, b - {x});
    }
  }

  /** The simple path as the source guards it: only the first two characters
      are compared with the country code. */
  function IsSimpleInfoAsWritten(cc: string, info: string): (r: bool)
    requires |cc| == 2
    ensures r ==> |info| == 3
    ensures IsSimpleInfo(cc, info) <==> r && IsUpper(info[2])
  {
    |info| == 3 && info[0] == cc[0] && info[1] == cc[1]
  }

  /** For country XB with value XB5 the source takes the simple path, whose
      packed entry -12 reads back as special case 19. */
  lemma LegacyCodeAsWritten(digits: int, numeric: int)
    requires 0 <= digits <= 3 && 0 <= numeric < 1000
    ensures IsSimpleInfoAsWritten("XB", LegacyCode) && !IsSimpleInfo("XB", LegacyCode)
    ensures Decode(SimpleEntryAsWritten(LegacyCode[2], digits, numeric)) == Some(Special(19))
  {
    NonLetterFinalCharMisread(digits, numeric);
  }

  /** With the third character required to be a letter, XB5 for country XB is a
      special case with no cut-over, and its entry reads back as the row made
      from XB5. */
  lemma LegacyCodeIsSpecial(reg: Registry, timeOf: TimeParser, props: map<string, string>, m: MainTables)
    requires Built(reg, timeOf, props, m)
    requires "XB" in props && props["XB"] == LegacyCode
    ensures var v := MainInts(m)[CountryIndex("XB")];
      TypeBitOf(v) == 1 && 1 <= FinalCharOf(v) <= |m.special.cases|
      && BareRow(m.special.cases[FinalCharOf(v) - 1], LegacyCode)
  {
    LegacyCodeNeedsRow(props);
    BareCodeSlot(reg, timeOf, props, m, "XB");
  }

  lemma LegacyCodeNeedsRow(props: map<string, string>)
    requires "XB" in props && props["XB"] == LegacyCode
    ensures IsUpper("XB"[0]) && IsUpper("XB"[1])
    ensures NeedsSpecialRow(props, "XB") && |props["XB"]| == 3
  {
    assert !IsSimpleInfo("XB", LegacyCode);
  }

  /** A row for a bare code: that code, no successor, no cut-over. */
  ghost predicate BareRow(row: SpecialCase, code: string) {
    row.oldCode == code && row.newCode == None && row.cutOver == NeverCutOver
  }

  /** A three-character value that is not of the simple form makes a row with
      that code, no successor and no cut-over, and its entry points at it. */
  lemma BareCodeSlot(reg: Registry, timeOf: TimeParser, props: map<string, string>, m: MainTables, cc: string)
    requires Built(reg, timeOf, props, m)
    requires |cc| == 2 && IsUpper(cc[0]) && IsUpper(cc[1])
    requires NeedsSpecialRow(props, cc) && |props[cc]| == 3
    ensures var v := MainInts(m)[CountryIndex(cc)];
      TypeBitOf(v) == 1 && 1 <= FinalCharOf(v) <= |m.special.cases|
      && BareRow(m.special.cases[FinalCharOf(v) - 1], props[cc])
  {
    SpecialSlot(reg, timeOf, props, m, cc);
    var v := MainInts(m)[CountryIndex(cc)];
    BareCodeRow(reg, timeOf, props[cc], m.special.cases[FinalCharOf(v) - 1]);
  }

  lemma BareCodeRow(reg: Registry, timeOf: TimeParser, code: string, row: SpecialCase)
    requires |code| == 3 && MakeRecord(reg, timeOf, code) == Success(row)
    ensures BareRow(row, code)
  {
  }
}

=== FILE: other.dfy ===
/** The other-currencies tables: every listed code that the main table cannot
    produce from its country's entry, with its fraction digits and numeric
    code, at most 70 of them. */
module OtherCurrencies {
  import opened Results
  import opened Text
  import opened Layout
  import opened Registry
  import opened SpecialCases
  import opened MainTable

  datatype OtherTables = OtherTables(
    codes: seq<string>,
    joined: string,
    digits: seq<int>,
    numerics: seq<int>)

  /** The number of seven-character records `all` holds. */
  function RecordCount(all: string): nat {
    (|all| + 1) / 7
  }

  lemma RecordInRange(all: string, i: nat)
    requires |all| % 7 == 6 && i < RecordCount(all)
    ensures 7 * i + 6 <= |all|
  {
  }

  /** The main table cannot give back `code`: its country slot is invalid or a
      special case, or holds a different final letter. */
  predicate NeedsOther(main: seq<int>, code: string)
    requires |main| == TableSize && |code| == 3
  {
    IsUpper(code[0]) && IsUpper(code[1]) &&
    var v := main[CountryIndex(code[..2])];
    v == InvalidCountryEntry || TypeBitOf(v) != 0 || FinalCharOf(v) != code[2] as int - 'A' as int
  }

  /** The three mask tests on the country's int say exactly that the int does
      not read back as a simple entry with the code's final letter. */
  lemma NeedsOtherDecode(main: seq<int>, code: string)
    requires |main| == TableSize && |code| == 3
    ensures NeedsOther(main, code) <==> (
      && IsUpper(code[0]) && IsUpper(code[1])
      && var e := Decode(main[CountryIndex(code[..2])]);
         !(e.Some? && e.value.Simple? && e.value.finalChar == code[2] as int - 'A' as int))
  {
  }

  /** Reference: the codes of records 0..i-1 that need an entry of their own,
      in record order. */
  ghost function OtherCodesUpTo(reg: Registry, main: seq<int>, i: nat): seq<string>
    requires |main| == TableSize && 7 * i <= |reg.all| + 1
  {
    if i == 0 then []
    else
      var code := RecordCode(reg.all, i - 1);
      OtherCodesUpTo(reg, main, i - 1) + (if NeedsOther(main, code) then [code] else [])
  }

  /** What the source demands of record i: a dash before it, digits that parse,
      a valid listed code, and a numeric code when the record is kept. */
  ghost predicate RecordOk(reg: Registry, main: seq<int>, i: nat)
    requires |main| == TableSize && 7 * i + 6 <= |reg.all|
  {
    var code := RecordCode(reg.all, i);
    && (i > 0 ==> reg.all[7 * i - 1] == '-')
    && ParseInt(RecordDigits(reg.all, i)).Success?
    && CheckCurrencyCode(reg, code).Success?
    && (NeedsOther(main, code) ==> NumericCode(reg, code).Success?)
  }

  ghost predicate AllRecordsOk(reg: Registry, main: seq<int>)
    requires |main| == TableSize && |reg.all| % 7 == 6
  {
    AllOkUpTo(reg, main, RecordCount(reg.all))
  }

  /** The kept codes, dash-joined, and their digits and numeric codes. */
  ghost predicate Describes(reg: Registry, o: OtherTables) {
    && (forall j :: 0 <= j < |o.codes| ==> |o.codes[j]| == 3)
    && o.joined == DashJoin(o.codes)
    && |o.digits| == |o.codes| && |o.numerics| == |o.codes|
    && forall j :: 0 <= j < |o.codes| ==>
         o.digits[j] == DefaultFractionDigits(reg, o.codes[j])
         && NumericCode(reg, o.codes[j]) == Success(o.numerics[j])
  }

  /** One more code in the tables: a dash first unless the joined string is
      still empty. */
  function Append(reg: Registry, o: OtherTables, code: string, numeric: int): (o': OtherTables)
    requires |code| == 3
    ensures o'.codes == o.codes + [code]
    ensures Describes(reg, o) && NumericCode(reg, code) == Success(numeric) ==> Describes(reg, o')
  {
    var joined := if |o.joined| > 0 then o.joined + "-" + code else o.joined + code;
    var o' := OtherTables(o.codes + [code], joined,
                          o.digits + [DefaultFractionDigits(reg, code)], o.numerics + [numeric]);
    AppendKeeps(reg, o, code, numeric, o');
    o'
  }

  lemma AppendKeeps(reg: Registry, o: OtherTables, code: string, numeric: int, o': OtherTables)
    requires |code| == 3
    requires o' == OtherTables(o.codes + [code],
                               if |o.joined| > 0 then o.joined + "-" + code else o.joined + code,
                               o.digits + [DefaultFractionDigits(reg, code)], o.numerics + [numeric])
    ensures Describes(reg, o) && NumericCode(reg, code) == Success(numeric) ==> Describes(reg, o')
  {
    if Describes(reg, o) && NumericCode(reg, code) == Success(numeric) {
      DashJoinAppend(o.codes, code);
    }
  }

  /** buildOtherTables: scans the records of `all` in order. It succeeds
      exactly when the size is right, every record is acceptable and at most
      70 codes need an entry; the codes kept are the reference ones. */
  method BuildOther(reg: Registry, main: seq<int>) returns (r: Result<OtherTables, Error>)
    requires |main| == TableSize
    ensures |reg.all| % 7 != 6 ==> r == Failure(BadRegistrySize)
    ensures r.Success? <==>
      && |reg.all| % 7 == 6
      && AllRecordsOk(reg, main)
      && |OtherCodesUpTo(reg, main, RecordCount(reg.all))| <= MaxOtherCurrencies
    ensures r.Success? ==>
      && r.value.codes == OtherCodesUpTo(reg, main, RecordCount(reg.all))
      && |r.value.codes| <= MaxOtherCurrencies
      && Describes(reg, r.value)
  {
    var all := reg.all;
    if |all| % 7 != 6 {
      return Failure(BadRegistrySize);
    }
    var n := RecordCount(all);
    var acc := OtherTables([], "", [], []);
    var i := 0;
    while i < n
      invariant 0 <= i <= n
      invariant acc.codes == OtherCodesUpTo(reg, main, i)
      invariant |acc.codes| <= MaxOtherCurrencies
      invariant Describes(reg, acc)
      invariant AllOkUpTo(reg, main, i)
    {
      RecordInRange(all, i);
      var step := ScanRecord(reg, main, i, acc);
      if step.Failure? {
        if !RecordOk(reg, main, i) {
          RecordFails(reg, main, i);
        } else {
          OtherCodesGrow(reg, main, i + 1, n);
        }
        return Failure(step.error);
      }
      acc := step.value;
      RecordAccepted(reg, main, i);
      i := i + 1;
    }
    return Success(acc);
  }

  /** One iteration of the scan: record i is checked in the source's order and
      its code is appended when the main table cannot give it back. */
  method ScanRecord(reg: Registry, main: seq<int>, i: nat, acc: OtherTables) returns (r: Result<OtherTables, Error>)
    requires |main| == TableSize && 7 * i + 6 <= |reg.all|
    requires acc.codes == OtherCodesUpTo(reg, main, i) && |acc.codes| <= MaxOtherCurrencies
    requires Describes(reg, acc)
    ensures r.Success? ==>
      && RecordOk(reg, main, i)
      && r.value.codes == OtherCodesUpTo(reg, main, i + 1)
      && |r.value.codes| <= MaxOtherCurrencies
      && Describes(reg, r.value)
    ensures r.Failure? ==>
      !RecordOk(reg, main, i) || |OtherCodesUpTo(reg, main, i + 1)| > MaxOtherCurrencies
    ensures i > 0 && reg.all[7 * i - 1] != '-' ==> r == Failure(BadSeparator(7 * i - 1))
  {
    var all := reg.all;
    var code := RecordCode(all, i);
    OtherCodesStep(reg, main, i);
    if i > 0 && all[7 * i - 1] != '-' {
      return Failure(BadSeparator(7 * i - 1));
    }
    var parsed := ParseInt(RecordDigits(all, i));
    if parsed.Failure? {
      return Failure(parsed.error);
    }
    var checked := CheckCurrencyCode(reg, code);
    if checked.Failure? {
      return Failure(checked.error);
    }
    if !NeedsOther(main, code) {
      return Success(acc);
    }
    if |acc.codes| == MaxOtherCurrencies {
      return Failure(TooManyOtherCurrencies);
    }
    var numeric := NumericCode(reg, code);
    if numeric.Failure? {
      return Failure(numeric.error);
    }
    return Success(Append(reg, acc, code, numeric.value));
  }

  ghost predicate AllOkUpTo(reg: Registry, main: seq<int>, i: nat)
    requires |main| == TableSize
  {
    forall j :: 0 <= j < i ==> 7 * j + 6 <= |reg.all| && RecordOk(reg, main, j)
  }

  lemma OtherCodesStep(reg: Registry, main: seq<int>, i: nat)
    requires |main| == TableSize && 7 * i + 6 <= |reg.all|
    ensures OtherCodesUpTo(reg, main, i + 1) == OtherCodesUpTo(reg, main, i) +
      (if NeedsOther(main, RecordCode(reg.all, i)) then [RecordCode(reg.all, i)] else [])
  {
  }

  lemma RecordAccepted(reg: Registry, main: seq<int>, i: nat)
    requires |main| == TableSize && 7 * i + 6 <= |reg.all|
    requires AllOkUpTo(reg, main, i) && RecordOk(reg, main, i)
    ensures AllOkUpTo(reg, main, i + 1)
  {
  }

  /** One record the source rejects makes the whole scan fail. */
  lemma RecordFails(reg: Registry, main: seq<int>, i: nat)
    requires |main| == TableSize && |reg.all| % 7 == 6 && i < RecordCount(reg.all)
    requires 7 * i + 6 <= |reg.all| && !RecordOk(reg, main, i)
    ensures !AllRecordsOk(reg, main)
  {
  }

  /** Appending one code to a dash-joined list: a dash only when the list was
      not empty. */
  lemma DashJoinAppend(codes: seq<string>, code: string)
    requires |code| == 3 && forall j :: 0 <= j < |codes| ==> |codes[j]| == 3
    ensures DashJoin(codes) == "" <==> codes == []
    ensures DashJoin(codes + [code]) ==
      if |DashJoin(codes)| > 0 then DashJoin(codes) + "-" + code else DashJoin(codes) + code
  {
    assert (codes + [code])[..|codes|] == codes;
    DashJoinLayout(codes);
  }

  /** The reference list only grows as more records are scanned. */
  lemma {:induction false} OtherCodesGrow(reg: Registry, main: seq<int>, i: nat, n: nat)
    requires |main| == TableSize && i <= n && 7 * n <= |reg.all| + 1
    ensures |OtherCodesUpTo(reg, main, i)| <= |OtherCodesUpTo(reg, main, n)|
    decreases n - i
  {
    if i < n {
      OtherCodesGrow(reg, main, i, n - 1);
    }
  }

  /** With the main table built from the same properties, a listed code needs
      an entry of its own exactly when its country does not have it as a
      simple-case currency. */
  lemma NeedsOtherIff(reg: Registry, timeOf: TimeParser, props: map<string, string>, m: MainTables,
                       code: string)
    requires Built(reg, timeOf, props, m)
    requires CheckCurrencyCode(reg, code).Success?
    ensures var cc := code[..2];
      NeedsOther(MainInts(m), code) <==> !(cc in props && props[cc] == code && IsSimpleInfo(cc, code))
  {
    var main := MainInts(m);
    assert IsUpper(code[..2][0]) && IsUpper(code[..2][1]);
    SimpleSlot(reg, timeOf, props, m, code[..2]);
    NeedsOtherFromSlot(main, props, code);
  }

  lemma NeedsOtherFromSlot(main: seq<int>, props: map<string, string>, code: string)
    requires |main| == TableSize && |code| == 3 && IsUpper(code[0]) && IsUpper(code[1])
    requires var cc := code[..2]; var v := main[CountryIndex(cc)];
      && (v != InvalidCountryEntry && TypeBitOf(v) == 0 <==> cc in props && IsSimpleInfo(cc, props[cc]))
      && (cc in props && IsSimpleInfo(cc, props[cc]) ==> FinalCharOf(v) == props[cc][2] as int - 'A' as int)
    ensures var cc := code[..2];
      NeedsOther(main, code) <==> !(cc in props && props[cc] == code && IsSimpleInfo(cc, code))
  {
    var cc := code[..2];
    if cc in props && IsSimpleInfo(cc, props[cc]) && !NeedsOther(main, code) {
      var info := props[cc];
      assert info[0] == code[0] && info[1] == code[1] && info[2] == code[2];
      assert info == code;
    }
  }
}

=== FILE: registry.dfy ===
/** The read-only lookup strings of the property table and the three lookups
    built on them: currency-code validation, default fraction digits, and the
    ISO numeric code. */
module Registry {
  import opened Results
  import opened Text

  /** `all` lists every valid code as CCCnnn records separated by '-';
      the four minor-unit strings are concatenations of three-letter codes. */
  datatype Registry = Registry(
    all: string,
    minor0: string,
    minor1: string,
    minor3: string,
    minorUndefined: string)

  /** The required properties, and the property table itself: two-letter keys
      are country codes. */
  datatype Input = Input(
    formatVersion: string,
    dataVersion: string,
    registry: Registry,
    props: map<string, string>)

  const RequiredKeys: seq<string> :=
    ["formatVersion", "dataVersion", "all", "minor0", "minor1", "minor3", "minorUndefined"]

  /** Looks up the required keys in the parsed property table; any one missing
      stops the run. */
  function ReadInput(props: map<string, string>): (r: Result<Input, Error>)
    ensures r.Success? <==> forall i :: 0 <= i < |RequiredKeys| ==> RequiredKeys[i] in props
    ensures r.Failure? ==> r.error == MissingRequiredData
    ensures r.Success? ==>
      && "formatVersion" in props && "dataVersion" in props && "all" in props && "minor0" in props
      && "minor1" in props && "minor3" in props && "minorUndefined" in props
      && r.value.props == props
      && r.value.formatVersion == props["formatVersion"]
      && r.value.dataVersion == props["dataVersion"]
      && r.value.registry == Registry(props["all"], props["minor0"], props["minor1"],
                                      props["minor3"], props["minorUndefined"])
  {
    if forall i :: 0 <= i < |RequiredKeys| ==> RequiredKeys[i] in props then
      assert RequiredKeys[0] in props && RequiredKeys[1] in props && RequiredKeys[2] in props;
      assert RequiredKeys[3] in props && RequiredKeys[4] in props && RequiredKeys[5] in props;
      assert RequiredKeys[6] in props;
      Success(Input(props["formatVersion"], props["dataVersion"],
        Registry(props["all"], props["minor0"], props["minor1"], props["minor3"], props["minorUndefined"]),
        props))
    else
      Failure(MissingRequiredData)
  }

  /** The one code that may contain a character other than 'A'..'Z'. */
  const LegacyCode: string := "XB5"

  /** A well-formed code: three upper-case letters, or the legacy exception. */
  predicate WellFormedCode(code: string) {
    code == LegacyCode || LetterCode(code)
  }

  /** A code of three upper-case letters. */
  predicate LetterCode(code: string) {
    |code| == 3 && IsUpper(code[0]) && IsUpper(code[1]) && IsUpper(code[2])
  }

  /** checkCurrencyCode: the code is returned unchanged when it is well formed
      and listed in `all`; otherwise the first check it fails names the error. */
  function CheckCurrencyCode(reg: Registry, code: string): (r: Result<string, Error>)
    ensures r.Success? ==> r.value == code && WellFormedCode(code) && IsUpper(code[0]) && IsUpper(code[1])
    ensures |code| != 3 ==> r == Failure(IllegalCodeLength(code))
    ensures |code| == 3 && !WellFormedCode(code) ==> r == Failure(IllegalCodeChar(code))
  {
    if |code| != 3 then Failure(IllegalCodeLength(code))
    else if code != LegacyCode && !(IsUpper(code[0]) && IsUpper(code[1]) && IsUpper(code[2])) then
      Failure(IllegalCodeChar(code))
    else if !Contains(reg.all, code) then Failure(CodeNotListed(code))
    else Success(code)
  }

  /** A code passes the check exactly when it is well formed and occurs in
      `all`; a well-formed code that does not occur is reported as not listed. */
  lemma CheckCurrencyCodeListed(reg: Registry, code: string)
    ensures CheckCurrencyCode(reg, code).Success? <==> WellFormedCode(code) && Listed(reg.all, code)
    ensures WellFormedCode(code) && !Listed(reg.all, code) ==>
      CheckCurrencyCode(reg, code) == Failure(CodeNotListed(code))
  {
    ContainsListed(reg.all, code);
  }

  /** getDefaultFractionDigits: the minor-unit strings are consulted in a fixed
      order, 0 then 1 then 3 then undefined (-1); a code in none of them has 2. */
  function DefaultFractionDigits(reg: Registry, code: string): (r: int)
    ensures -1 <= r <= 3
  {
    if Contains(reg.minor0, code) then 0
    else if Contains(reg.minor1, code) then 1
    else if Contains(reg.minor3, code) then 3
    else if Contains(reg.minorUndefined, code) then -1
    else 2
  }

  /** The digits are those of the first minor-unit string, in the order 0, 1,
      3, undefined, that lists the code; 2 when none does. */
  lemma DefaultFractionDigitsOrder(reg: Registry, code: string)
    ensures var r := DefaultFractionDigits(reg, code);
      && (r == 0 <==> Listed(reg.minor0, code))
      && (r == 1 <==> !Listed(reg.minor0, code) && Listed(reg.minor1, code))
      && (r == 3 <==> !Listed(reg.minor0, code) && !Listed(reg.minor1, code) && Listed(reg.minor3, code))
      && (r == -1 <==>
            && !Listed(reg.minor0, code) && !Listed(reg.minor1, code)
            && !Listed(reg.minor3, code) && Listed(reg.minorUndefined, code))
      && (r == 2 <==>
            && !Listed(reg.minor0, code) && !Listed(reg.minor1, code)
            && !Listed(reg.minor3, code) && !Listed(reg.minorUndefined, code))
  {
    ContainsListed(reg.minor0, code);
    ContainsListed(reg.minor1, code);
    ContainsListed(reg.minor3, code);
    ContainsListed(reg.minorUndefined, code);
  }

  /** getNumericCode: the three characters after the first occurrence of the
      code in `all`, parsed as a decimal int. */
  function NumericCode(reg: Registry, code: string): (r: Result<int, Error>)
    ensures r.Success? ==> -99 <= r.value <= 999
  {
    var index := IndexOf(reg.all, code);
    if index + 6 > |reg.all| then Failure(IndexOutOfBounds)
    else
      var digits := Substring(reg.all, index + 3, index + 6);
      ParseThreeCharsRange(digits);
      ParseInt(digits)
  }

  /** The numeric code is read right after the first occurrence of the code:
      the three characters there, or an index error when `all` ends first. */
  lemma NumericCodeAt(reg: Registry, code: string, p: int)
    requires |code| == 3 && FirstAt(reg.all, code, p)
    ensures p + 6 <= |reg.all| ==> NumericCode(reg, code) == ParseInt(Substring(reg.all, p + 3, p + 6))
    ensures p + 6 > |reg.all| ==> NumericCode(reg, code) == Failure(IndexOutOfBounds)
  {
    IndexOfFirst(reg.all, code);
    FirstAtUnique(reg.all, code, p, IndexOf(reg.all, code));
  }

  /** A registry string of records: a code the source accepts (three letters
      or XB5), three digits, then '-' between records. */
  predicate WellFormedAll(all: string) {
    && |all| % 7 == 6
    && forall i :: 0 <= i < (|all| + 1) / 7 ==> RecordWellFormed(all, i)
  }

  predicate RecordWellFormed(all: string, i: nat)
    requires 7 * i + 6 <= |all|
  {
    && WellFormedCode(RecordCode(all, i))
    && (forall k :: 7 * i + 3 <= k < 7 * i + 6 ==> IsDigit(all[k]))
    && (i > 0 ==> all[7 * i - 1] == '-')
  }

  /** The code of record i of `all`. */
  function RecordCode(all: string, i: nat): (code: string)
    requires 7 * i + 6 <= |all|
    ensures |code| == 3
  {
    Substring(all, 7 * i, 7 * i + 3)
  }

  /** The numeric-code text of record i of `all`. */
  function RecordDigits(all: string, i: nat): (digits: string)
    requires 7 * i + 6 <= |all|
    ensures |digits| == 3
  {
    Substring(all, 7 * i + 3, 7 * i + 6)
  }

  /** In a well-formed registry a code of letters only occurs at the start of
      a record, so the first occurrence is its first record and its numeric code
      is the three digits stored there, a number in 0..999. XB5 is left out of
      the first promise: it can also occur inside an earlier record, as in
      `AXB512-XB5000`, where the lookup fails (see `LegacyCodeReadEarly`). */
  lemma NumericCodeOfRecord(reg: Registry, i: nat)
    requires WellFormedAll(reg.all)
    requires i < (|reg.all| + 1) / 7
    requires forall k :: 0 <= k < i ==> RecordCode(reg.all, k) != RecordCode(reg.all, i)
    ensures LetterCode(RecordCode(reg.all, i)) ==>
      NumericCode(reg, RecordCode(reg.all, i)) == ParseInt(RecordDigits(reg.all, i))
    ensures ParseInt(RecordDigits(reg.all, i)).Success?
    ensures 0 <= ParseInt(RecordDigits(reg.all, i)).value < 1000
  {
    var all := reg.all;
    var code := RecordCode(all, i);
    SubstringAt(all, 7 * i, 7 * i + 3);
    assert RecordWellFormed(all, i);
    if LetterCode(code) {
      assert OccursAt(all, code, 7 * i);
      forall j | 0 <= j < 7 * i
        ensures !OccursAt(all, code, j)
      {
        NotAnEarlierRecord(all, i, j);
      }
      assert FirstAt(all, code, 7 * i);
      NumericCodeAt(reg, code, 7 * i);
    }
    var digits := RecordDigits(all, i);
    SubstringAt(all, 7 * i + 3, 7 * i + 6);
    assert AllDigits(digits);
    DecimalValueBound(digits, 0, 3);
    assert Pow10(3) == 1000;
  }

  /** A well-formed registry in which XB5 first occurs inside the record
      AXB512: the lookup reads the three characters after that occurrence,
      "12-", and fails to parse them, although XB5's own record holds 000. */
  lemma LegacyCodeReadEarly()
    ensures var all := "AXB512-XB5000";
      && WellFormedAll(all)
      && RecordCode(all, 1) == LegacyCode && ParseInt(RecordDigits(all, 1)) == Success(0)
      && NumericCode(Registry(all, "", "", "", ""), LegacyCode) == Failure(NumberFormat("12-"))
  {
    var all := "AXB512-XB5000";
    EarlyExampleRecords(all);
    assert !OccursAt(all, LegacyCode, 0) by {
      assert all[0] != LegacyCode[0];
    }
    assert OccursAt(all, LegacyCode, 1);
    NumericCodeAt(Registry(all, "", "", "", ""), LegacyCode, 1);
    EarlyExampleDigits(all);
  }

  /** The two records of the example: AXB with 512, then XB5 with 000. */
  lemma EarlyExampleRecords(all: string)
    requires all == "AXB512-XB5000"
    ensures WellFormedAll(all)
    ensures RecordCode(all, 1) == LegacyCode && ParseInt(RecordDigits(all, 1)) == Success(0)
  {
    SubstringIsSlice(all, 0, 3);
    SubstringIsSlice(all, 7, 10);
    SubstringIsSlice(all, 10, 13);
    assert all[0..3] == "AXB" && all[7..10] == LegacyCode;
    assert RecordWellFormed(all, 0) && RecordWellFormed(all, 1);
    assert all[10..13] == ThreeDigits(0) by {
      assert all[10..13] == "000";
    }
    ParseThreeDigits(0);
  }

  /** The characters after the early occurrence do not parse. */
  lemma EarlyExampleDigits(all: string)
    requires all == "AXB512-XB5000"
    ensures ParseInt(Substring(all, 4, 7)) == Failure(NumberFormat("12-"))
  {
    SubstringIsSlice(all, 4, 7);
    var d := Substring(all, 4, 7);
    assert d == "12-";
    assert d[0] != '-' && d[0] != '+' && !IsDigit(d[2]);
  }

  /** A code of three letters taken from record i does not occur at any
      earlier position: not at an earlier record start, by assumption, and not
      in between, where it would cover a digit or a separator. */
  lemma NotAnEarlierRecord(all: string, i: nat, j: nat)
    requires WellFormedAll(all)
    requires i < (|all| + 1) / 7 && j < 7 * i && LetterCode(RecordCode(all, i))
    requires forall k :: 0 <= k < i ==> RecordCode(all, k) != RecordCode(all, i)
    ensures !OccursAt(all, RecordCode(all, i), j)
  {
    var code := RecordCode(all, i);
    SubstringAt(all, 7 * i, 7 * i + 3);
    assert RecordWellFormed(all, i);
    var k, m := j / 7, j % 7;
    if m == 0 {
      SubstringAt(all, 7 * k, 7 * k + 3);
      assert j == 7 * k && RecordCode(all, k) != code;
    } else if j + 3 <= |all| {
      var p := if m <= 2 then 7 * k + 3 else j;
      if m <= 5 {
        assert RecordWellFormed(all, k);
      } else {
        assert RecordWellFormed(all, k + 1);
      }
      assert !IsUpper(all[p]) && IsUpper(code[p - j]);
      assert all[j + (p - j)] != code[p - j];
    }
  }
}

=== FILE: results.dfy ===
/** Failure-compatible wrappers used by every stage of the generator, and the
    error kinds that abort a run. Every check of the generator throws and ends
    the whole run, so each stage returns a `Result` and the first failure is
    propagated with `:-`. */
module Results {

  datatype Option<+T> = None | Some(value: T)

  datatype Result<+T, +E> = Success(value: T) | Failure(error: E) {

    predicate IsFailure() {
      Failure?
    }

    function PropagateFailure<U>(): Result<U, E>
      requires Failure?
    {
      Failure(error)
    }

    function Extract(): T
      requires Success?
    {
      value
    }
  }

  /** The reasons for which the generator stops. */
  datatype Error =
    | MissingRequiredData                 // a required property key is absent
    | IllegalCodeLength(code: string)     // a currency code is not 3 characters long
    | IllegalCodeChar(code: string)       // a currency code has a character outside 'A'..'Z'
    | CodeNotListed(code: string)         // a currency code does not occur in "all"
    | FractionDigitsOutOfRange(code: string)
    | NumericCodeOutOfRange(code: string)
    | InvalidCurrencyInfo(info: string)   // a transition string without ';' where expected
    | BadCutOverTime(text: string)        // unparsable, or too far from the present
    | TooManySpecialCases
    | TooManyOtherCurrencies
    | BadRegistrySize                     // length of "all" is not 6 modulo 7
    | BadSeparator(position: nat)         // a record of "all" is not followed by '-'
    | NumberFormat(text: string)          // Integer.parseInt rejected the text
    | IndexOutOfBounds                    // a charAt or substring outside the string
}

=== FILE: special.dfy ===
/** The special-case tables: one row per distinct currency-info string that
    the main table cannot encode directly, interned by exact string. */
module SpecialCases {
  import opened Results
  import opened Text
  import opened Layout
  import opened Registry

  /** Parses the timestamp text of a transition into epoch milliseconds; None
      when it does not parse or lies too far from the present. */
  type TimeParser = string -> Option<int>

  /** One row of the parallel special-case arrays. */
  datatype SpecialCase = SpecialCase(
    cutOver: int,
    oldCode: string,
    newCode: Option<string>,
    oldDigits: int,
    newDigits: int,
    oldNumeric: int,
    newNumeric: int)

  /** The rows so far, and the info strings they were made from in the order
      they were first seen: the memo maps a string to its position here. */
  datatype SpecialTable = SpecialTable(keys: seq<string>, cases: seq<SpecialCase>)

  const EmptyTable: SpecialTable := SpecialTable([], [])

  /** The row for one currency-info string: either a bare code, kept until the
      end of time, or `OLD;timestamp;NEW`. */
  function MakeRecord(reg: Registry, timeOf: TimeParser, info: string): (r: Result<SpecialCase, Error>)
    ensures |info| == 3 ==>
      (r.Success? <==> CheckCurrencyCode(reg, info).Success? && NumericCode(reg, info).Success?)
    ensures |info| == 3 && r.Success? ==>
      && r.value.cutOver == NeverCutOver
      && r.value.oldCode == info && r.value.newCode == None
      && r.value.newDigits == 0 && r.value.newNumeric == 0
    ensures |info| != 3 && r.Success? ==>
      && |info| >= 8 && info[3] == ';' && info[|info| - 4] == ';'
      && r.value.oldCode == Substring(info, 0, 3)
      && r.value.newCode == Some(Substring(info, |info| - 3, |info|))
      && timeOf(Substring(info, 4, |info| - 4)) == Some(r.value.cutOver)
    ensures r.Success? ==>
      && CheckCurrencyCode(reg, r.value.oldCode).Success?
      && r.value.oldDigits == DefaultFractionDigits(reg, r.value.oldCode)
      && NumericCode(reg, r.value.oldCode) == Success(r.value.oldNumeric)
    ensures r.Success? && r.value.newCode.Some? ==>
      && CheckCurrencyCode(reg, r.value.newCode.value).Success?
      && r.value.newDigits == DefaultFractionDigits(reg, r.value.newCode.value)
      && NumericCode(reg, r.value.newCode.value) == Success(r.value.newNumeric)
    ensures 0 < |info| < 3 ==> r == Failure(IndexOutOfBounds)
    ensures |info| > 3 && (info[3] != ';' || info[|info| - 4] != ';') ==>
      r == Failure(InvalidCurrencyInfo(info))
  {
    if |info| == 3 then
      var _ :- CheckCurrencyCode(reg, info);
      var numeric :- NumericCode(reg, info);
      Success(SpecialCase(NeverCutOver, info, None, DefaultFractionDigits(reg, info), 0, numeric, 0))
    else if |info| < 4 then
      Failure(IndexOutOfBounds)                    // charAt(3)
    else if info[3] != ';' || info[|info| - 4] != ';' then
      Failure(InvalidCurrencyInfo(info))
    else
      var oldCode := Substring(info, 0, 3);
      var newCode := Substring(info, |info| - 3, |info|);
      var _ :- CheckCurrencyCode(reg, oldCode);
      var _ :- CheckCurrencyCode(reg, newCode);
      if |info| < 8 then
        Failure(IndexOutOfBounds)                  // substring(4, length - 4)
      else
        var timeText := Substring(info, 4, |info| - 4);
        match timeOf(timeText)
        case None => Failure(BadCutOverTime(timeText))
        case Some(time) =>
          var oldNumeric :- NumericCode(reg, oldCode);
          var newNumeric :- NumericCode(reg, newCode);
          Success(SpecialCase(time, oldCode, Some(newCode),
            DefaultFractionDigits(reg, oldCode), DefaultFractionDigits(reg, newCode),
            oldNumeric, newNumeric))
  }

  /** A transition row and the timestamp text give back the string it was made
      from. */
  lemma TransitionRoundTrip(reg: Registry, timeOf: TimeParser, info: string)
    requires |info| != 3 && MakeRecord(reg, timeOf, info).Success?
    ensures var rec := MakeRecord(reg, timeOf, info).value;
      rec.newCode.Some? &&
      info == rec.oldCode + ";" + Substring(info, 4, |info| - 4) + ";" + rec.newCode.value
  {
    SplitAtSeparators(info);
  }

  lemma SplitAtSeparators(info: string)
    requires |info| >= 8 && info[3] == ';' && info[|info| - 4] == ';'
    ensures info == Substring(info, 0, 3) + ";" + Substring(info, 4, |info| - 4) + ";" + Substring(info, |info| - 3, |info|)
  {
    SubstringIsSlice(info, 0, 3);
    SubstringIsSlice(info, 4, |info| - 4);
    SubstringIsSlice(info, |info| - 3, |info|);
    SplitSlices(info);
  }

  lemma SplitSlices(info: string)
    requires |info| >= 8 && info[3] == ';' && info[|info| - 4] == ';'
    ensures info == info[..3] + ";" + info[4..|info| - 4] + ";" + info[|info| - 3..]
  {
    var rebuilt := info[..3] + ";" + info[4..|info| - 4] + ";" + info[|info| - 3..];
    assert |rebuilt| == |info|;
    forall k | 0 <= k < |info|
      ensures rebuilt[k] == info[k]
    {
    }
  }

  /** Conversely, `OLD;timestamp;NEW` with two listed codes and a good timestamp
      makes the transition row from OLD to NEW at that time. */
  lemma TransitionFromParts(reg: Registry, timeOf: TimeParser, oldCode: string, timeText: string, newCode: string)
    requires CheckCurrencyCode(reg, oldCode).Success? && CheckCurrencyCode(reg, newCode).Success?
    requires NumericCode(reg, oldCode).Success? && NumericCode(reg, newCode).Success?
    requires timeOf(timeText).Some?
    ensures MakeRecord(reg, timeOf, oldCode + ";" + timeText + ";" + newCode) ==
      Success(SpecialCase(timeOf(timeText).value, oldCode, Some(newCode),
        DefaultFractionDigits(reg, oldCode), DefaultFractionDigits(reg, newCode),
        NumericCode(reg, oldCode).value, NumericCode(reg, newCode).value))
  {
    JoinAtSeparators(oldCode, timeText, newCode);
  }

  lemma JoinAtSeparators(oldCode: string, timeText: string, newCode: string)
    requires |oldCode| == 3 && |newCode| == 3
    ensures var info := oldCode + ";" + timeText + ";" + newCode;
      && |info| == |timeText| + 8 && info[3] == ';' && info[|info| - 4] == ';'
      && Substring(info, 0, 3) == oldCode
      && Substring(info, |info| - 3, |info|) == newCode
      && Substring(info, 4, |info| - 4) == timeText
  {
    var info := oldCode + ";" + timeText + ";" + newCode;
    SubstringIsSlice(info, 0, 3);
    SubstringIsSlice(info, 4, |info| - 4);
    SubstringIsSlice(info, |info| - 3, |info|);
    assert info[..3] == oldCode;
    assert info[|info| - 3..] == newCode;
    assert info[4..|info| - 4] == timeText;
  }

  /** The memo lookup: the first position of `s` among `keys`, or -1 when
      it is not a key. */
  function IndexIn(keys: seq<string>, s: string): (r: int)
    ensures -1 <= r < |keys|
    ensures r >= 0 ==> keys[r] == s
  {
    if |keys| == 0 then -1
    else
      var r := IndexIn(keys[..|keys| - 1], s);
      if r >= 0 then r
      else if keys[|keys| - 1] == s then |keys| - 1
      else -1
  }

  /** The lookup finds the first occurrence, and misses only absent keys. */
  lemma {:induction false} IndexInFirst(keys: seq<string>, s: string)
    ensures IndexIn(keys, s) == -1 <==> forall i :: 0 <= i < |keys| ==> keys[i] != s
    ensures forall i :: 0 <= i < IndexIn(keys, s) ==> keys[i] != s
  {
    if |keys| > 0 {
      var init := keys[..|keys| - 1];
      IndexInFirst(init, s);
      forall i | 0 <= i < |init|
        ensures init[i] == keys[i]
      {
      }
    }
  }

  /** Among distinct keys the lookup of key i is i. */
  lemma IndexInDistinct(keys: seq<string>, i: nat)
    requires KeysApart(keys) && i < |keys|
    ensures IndexIn(keys, keys[i]) == i
  {
    IndexInFirst(keys, keys[i]);
  }

  /** No string is a key twice. */
  ghost predicate KeysApart(keys: seq<string>) {
    forall i, j :: 0 <= i < j < |keys| ==> keys[i] != keys[j]
  }

  /** The shape of the tables: at most 30 rows, one distinct key per row. */
  ghost predicate Shape(t: SpecialTable) {
    |t.keys| == |t.cases| <= MaxSpecialCases && KeysApart(t.keys)
  }

  /** Every key's row is the one that key makes. */
  ghost predicate RowsMade(reg: Registry, timeOf: TimeParser, t: SpecialTable) {
    forall i :: 0 <= i < |t.keys| ==> RowMade(reg, timeOf, t, i)
  }

  ghost predicate RowMade(reg: Registry, timeOf: TimeParser, t: SpecialTable, i: nat) {
    i < |t.keys| && i < |t.cases| && MakeRecord(reg, timeOf, t.keys[i]) == Success(t.cases[i])
  }

  /** The table invariant. */
  ghost predicate Wf(reg: Registry, timeOf: TimeParser, t: SpecialTable) {
    Shape(t) && RowsMade(reg, timeOf, t)
  }

  /** `t2` keeps every row and every key of `t1`, at the same positions. */
  ghost predicate Extends(t1: SpecialTable, t2: SpecialTable) {
    && |t1.keys| <= |t2.keys| && |t1.cases| <= |t2.cases|
    && t2.keys[..|t1.keys|] == t1.keys
    && t2.cases[..|t1.cases|] == t1.cases
  }

  lemma ExtendsTransitive(t1: SpecialTable, t2: SpecialTable, t3: SpecialTable)
    requires Extends(t1, t2) && Extends(t2, t3)
    ensures Extends(t1, t3)
  {
    assert t3.keys[..|t1.keys|] == t3.keys[..|t2.keys|][..|t1.keys|];
    assert t3.cases[..|t1.cases|] == t3.cases[..|t2.cases|][..|t1.cases|];
  }

  /** Key i of `t1` is key i of any extension. */
  lemma ExtendsKey(t1: SpecialTable, t2: SpecialTable, i: nat)
    requires Extends(t1, t2) && i < |t1.keys|
    ensures i < |t2.keys| && t2.keys[i] == t1.keys[i]
  {
    assert t2.keys[..|t1.keys|][i] == t2.keys[i];
  }

  /** makeSpecialCaseEntry: the row index for `info`, adding a row the first
      time the string is seen. */
  function Intern(reg: Registry, timeOf: TimeParser, t: SpecialTable, info: string)
    : (r: Result<(nat, SpecialTable), Error>)
    ensures IndexIn(t.keys, info) >= 0 ==> r == Success((IndexIn(t.keys, info), t))
    ensures IndexIn(t.keys, info) < 0 && |t.cases| == MaxSpecialCases ==> r == Failure(TooManySpecialCases)
    ensures IndexIn(t.keys, info) < 0 && |t.cases| != MaxSpecialCases ==>
      match MakeRecord(reg, timeOf, info)
      case Failure(e) => r == Failure(e)
      case Success(rec) => r == Success((|t.cases|, SpecialTable(t.keys + [info], t.cases + [rec])))
    ensures Shape(t) && r.Success? ==>
      && Shape(r.value.1)
      && Extends(t, r.value.1)
      && r.value.0 < |r.value.1.keys| && r.value.1.keys[r.value.0] == info
    ensures Shape(t) && RowsMade(reg, timeOf, t) && r.Success? ==> RowsMade(reg, timeOf, r.value.1)
  {
    var i := IndexIn(t.keys, info);
    if i >= 0 then
      Success((i, t))
    else if |t.cases| == MaxSpecialCases then
      Failure(TooManySpecialCases)
    else
      var rec :- MakeRecord(reg, timeOf, info);
      var t' := SpecialTable(t.keys + [info], t.cases + [rec]);
      InternKeepsWf(reg, timeOf, t, info, rec, t');
      Success((|t.cases|, t'))
  }

  lemma InternKeepsWf(reg: Registry, timeOf: TimeParser, t: SpecialTable, info: string,
                      rec: SpecialCase, t': SpecialTable)
    requires IndexIn(t.keys, info) < 0 && |t.cases| != MaxSpecialCases
    requires MakeRecord(reg, timeOf, info) == Success(rec)
    requires t' == SpecialTable(t.keys + [info], t.cases + [rec])
    ensures Shape(t) ==> Shape(t') && Extends(t, t')
    ensures Wf(reg, timeOf, t) ==> RowsMade(reg, timeOf, t')
  {
    var n := |t.keys|;
    assert t'.keys[..n] == t.keys;
    assert t'.cases[..|t.cases|] == t.cases;
    if Shape(t) {
      IndexInFirst(t.keys, info);
      forall i, j | 0 <= i < j < |t'.keys|
        ensures t'.keys[i] != t'.keys[j]
      {
        if j == n {
          assert t'.keys[i] == t.keys[i] && t'.keys[j] == info;
        } else {
          assert t'.keys[i] == t.keys[i] && t'.keys[j] == t.keys[j];
        }
      }
    }
    if Wf(reg, timeOf, t) {
      forall i | 0 <= i < |t'.keys|
        ensures RowMade(reg, timeOf, t', i)
      {
        if i < n {
          assert RowMade(reg, timeOf, t, i);
          assert t'.keys[i] == t.keys[i] && t'.cases[i] == t.cases[i];
        } else {
          assert t'.keys[i] == info && t'.cases[i] == rec;
        }
      }
    }
  }

  /** The keys after meeting `info`: unchanged when it is already a key,
      otherwise with `info` appended as the newest row's key. */
  ghost function AddKey(keys: seq<string>, info: string): seq<string> {
    if info in keys then keys else keys + [info]
  }

  /** A successful intern leaves exactly the keys `AddKey` describes: the
      source numbers a new string with the current count. */
  lemma InternAddsKey(reg: Registry, timeOf: TimeParser, t: SpecialTable, info: string)
    requires Intern(reg, timeOf, t, info).Success?
    ensures Intern(reg, timeOf, t, info).value.1.keys == AddKey(t.keys, info)
  {
    IndexInFirst(t.keys, info);
  }

  /** Interning the same string twice returns the same index and adds no row. */
  lemma InternIdempotent(reg: Registry, timeOf: TimeParser, t: SpecialTable, info: string)
    requires Shape(t)
    requires Intern(reg, timeOf, t, info).Success?
    ensures var (i, t') := Intern(reg, timeOf, t, info).value;
      Intern(reg, timeOf, t', info) == Success((i, t'))
  {
    var (i, t') := Intern(reg, timeOf, t, info).value;
    IndexInDistinct(t'.keys, i);
  }
}

=== FILE: text.dfy ===
/** The few java.lang.String and java.lang.Integer operations the generator
    relies on: `indexOf` for substring membership, `Integer.parseInt` for the
    three-digit numeric codes, and the dash-joined list of codes it builds with
    a StringBuffer. */
module Text {
  import opened Results
  import opened Bits

  predicate IsUpper(c: char) {
    'A' <= c <= 'Z'
  }

  predicate IsDigit(c: char) {
    '0' <= c <= '9'
  }

  /** `pat` occurs in `s` starting at position `j`. */
  predicate OccursAt(s: string, pat: string, j: int) {
    0 <= j && j + |pat| <= |s| && forall k :: 0 <= k < |pat| ==> s[j + k] == pat[k]
  }

  /** Java's `s.substring(from, to)`, built up one character at a time. */
  function Substring(s: string, from: nat, to: nat): (r: string)
    requires from <= to <= |s|
    ensures |r| == to - from
  {
    if from == to then [] else Substring(s, from, to - 1) + [s[to - 1]]
  }

  lemma {:induction false} SubstringIsSlice(s: string, from: nat, to: nat)
    requires from <= to <= |s|
    ensures Substring(s, from, to) == s[from..to]
  {
    if from < to {
      SubstringIsSlice(s, from, to - 1);
      assert s[from..to] == s[from..to - 1] + [s[to - 1]];
    }
  }

  /** The characters of a substring, by position. */
  lemma SubstringAt(s: string, from: nat, to: nat)
    requires from <= to <= |s|
    ensures forall k :: 0 <= k < to - from ==> Substring(s, from, to)[k] == s[from + k]
  {
    SubstringIsSlice(s, from, to);
  }

  /** `p` is the leftmost position at which `pat` occurs in `s`. */
  predicate FirstAt(s: string, pat: string, p: int) {
    OccursAt(s, pat, p) && forall j :: 0 <= j < p ==> !OccursAt(s, pat, j)
  }

  /** Java's `s.indexOf(pat)`: the leftmost occurrence, or -1 when there is
      none (IndexOfFirst says which occurrence it finds). */
  function IndexOf(s: string, pat: string): (r: int)
    ensures r == -1 || (0 <= r && r + |pat| <= |s|)
  {
    IndexFrom(s, pat, 0)
  }

  /** The scan behind `indexOf`, from position `from` on. */
  function IndexFrom(s: string, pat: string, from: nat): (r: int)
    ensures r == -1 || (from <= r && r + |pat| <= |s|)
    decreases |s| - from
  {
    if from + |pat| > |s| then -1
    else if OccursAt(s, pat, from) then from
    else IndexFrom(s, pat, from + 1)
  }

  /** The scan from `from` finds an occurrence, and none it skipped. */
  lemma {:induction false} IndexFromFirst(s: string, pat: string, from: nat)
    ensures var r := IndexFrom(s, pat, from);
      && (r == -1 || OccursAt(s, pat, r))
      && forall j :: from <= j && OccursAt(s, pat, j) ==> from <= r <= j
    decreases |s| - from
  {
    if from + |pat| <= |s| && !OccursAt(s, pat, from) {
      IndexFromFirst(s, pat, from + 1);
    }
  }

  /** `indexOf` gives the leftmost occurrence, and -1 exactly when there is
      none. */
  lemma IndexOfFirst(s: string, pat: string)
    ensures IndexOf(s, pat) == -1 || FirstAt(s, pat, IndexOf(s, pat))
    ensures IndexOf(s, pat) == -1 <==> forall j :: !OccursAt(s, pat, j)
  {
    IndexFromFirst(s, pat, 0);
  }

  /** The leftmost occurrence is unique. */
  lemma FirstAtUnique(s: string, pat: string, p: int, q: int)
    requires FirstAt(s, pat, p) && FirstAt(s, pat, q)
    ensures p == q
  {
  }

  /** Java's `s.indexOf(pat) != -1`. */
  predicate Contains(s: string, pat: string) {
    IndexOf(s, pat) != -1
  }

  /** `pat` occurs somewhere in `s`. */
  ghost predicate Listed(s: string, pat: string) {
    exists j :: OccursAt(s, pat, j)
  }

  lemma ContainsListed(s: string, pat: string)
    ensures Contains(s, pat) <==> Listed(s, pat)
  {
    IndexOfFirst(s, pat);
  }

  predicate AllDigits(s: string) {
    DigitsFrom(s, 0)
  }

  /** Every character of `s` from position `lo` on is a decimal digit. */
  predicate DigitsFrom(s: string, lo: nat) {
    forall i :: lo <= i < |s| ==> IsDigit(s[i])
  }

  /** Value of the decimal digits s[lo..hi], most significant first. */
  function DecimalValue(s: string, lo: nat, hi: nat): (v: nat)
    requires lo <= hi <= |s| && DigitsFrom(s, lo)
  {
    if hi == lo then 0
    else DecimalValue(s, lo, hi - 1) * 10 + (s[hi - 1] as int - '0' as int)
  }

  /** Java's `Integer.parseInt(s)`: an optional sign followed by at least one
      decimal digit, and a value that fits an int. */
  function ParseInt(s: string): (r: Result<int, Error>)
    ensures r.Success? ==> IsInt32(r.value) && |s| > 0
    ensures r.Failure? ==> r.error == NumberFormat(s)
  {
    if |s| == 0 then Failure(NumberFormat(s))
    else
      var lo := if s[0] == '-' || s[0] == '+' then 1 else 0;
      if lo == |s| || !DigitsFrom(s, lo) then Failure(NumberFormat(s))
      else
        var magnitude := DecimalValue(s, lo, |s|);
        var v: int := if s[0] == '-' then 0 - magnitude else magnitude;
        if IsInt32(v) then Success(v) else Failure(NumberFormat(s))
  }

  /** Up to nine decimal digits always parse, to their decimal value: such a
      value stays below 10^9, within an int. */
  lemma ParseDigits(s: string)
    requires 0 < |s| <= 9 && AllDigits(s)
    ensures ParseInt(s) == Success(DecimalValue(s, 0, |s|))
  {
    DecimalValueBound(s, 0, |s|);
    Pow10Grows(|s|, 9);
    assert Pow10(9) == 1_000_000_000;
    assert s[0] != '-' && s[0] != '+';
  }

  lemma {:induction false} Pow10Grows(a: nat, b: nat)
    requires a <= b
    ensures Pow10(a) <= Pow10(b)
    decreases b
  {
    if a < b {
      Pow10Grows(a, b - 1);
    }
  }

  /** The three-character decimal text of `n`, zero-padded, as the numeric
      codes are written in the registry string. */
  function ThreeDigits(n: nat): (s: string)
    requires n < 1000
    ensures |s| == 3 && AllDigits(s)
  {
    [('0' as int + n / 100) as char, ('0' as int + n / 10 % 10) as char, ('0' as int + n % 10) as char]
  }

  /** Reading a three-digit field back gives the number it was written from. */
  lemma ParseThreeDigits(n: nat)
    requires n < 1000
    ensures ParseInt(ThreeDigits(n)) == Success(n)
  {
    var s := ThreeDigits(n);
    ThreeDigitsValue(n);
    assert IsDigit(s[0]) && s[0] != '-' && s[0] != '+';
  }

  lemma ThreeDigitsValue(n: nat)
    requires n < 1000
    ensures DecimalValue(ThreeDigits(n), 0, 3) == n
  {
    var s := ThreeDigits(n);
    var a, b, c := n / 100, n / 10 % 10, n % 10;
    DecimalDigits(n);
    assert s[0] as int - '0' as int == a && s[1] as int - '0' as int == b && s[2] as int - '0' as int == c;
    assert DecimalValue(s, 0, 1) == a;
    assert DecimalValue(s, 0, 2) == 10 * a + b;
  }

  lemma DecimalDigits(n: nat)
    requires n < 1000
    ensures n == 100 * (n / 100) + 10 * (n / 10 % 10) + n % 10
  {
  }

  /** Whatever three characters are parsed, the value lies in -99..999: at most
      three digits, or a sign and two digits. */
  lemma ParseThreeCharsRange(s: string)
    requires |s| == 3
    ensures ParseInt(s).Success? ==> -99 <= ParseInt(s).value <= 999
  {
    if ParseInt(s).Success? {
      var lo := if s[0] == '-' || s[0] == '+' then 1 else 0;
      DecimalValueBound(s, lo, 3);
      assert Pow10(3 - lo) <= 1000 && (lo == 1 ==> Pow10(3 - lo) == 100);
    }
  }

  lemma {:induction false} DecimalValueBound(s: string, lo: nat, hi: nat)
    requires lo <= hi <= |s| && DigitsFrom(s, lo)
    ensures DecimalValue(s, lo, hi) < Pow10(hi - lo)
  {
    if lo < hi {
      DecimalValueBound(s, lo, hi - 1);
    }
  }

  function Pow10(n: nat): nat {
    if n == 0 then 1 else 10 * Pow10(n - 1)
  }

  /** The codes joined with single dashes, in order. */
  function DashJoin(codes: seq<string>): string {
    if |codes| == 0 then ""
    else if |codes| == 1 then codes[0]
    else DashJoin(codes[..|codes| - 1]) + "-" + codes[|codes| - 1]
  }

  /** In a dash-joined list of three-character codes the i-th code sits at
      position 4i, followed by a dash unless it is the last one; this is how the
      list is read back by position. */
  lemma {:induction false} DashJoinLayout(codes: seq<string>)
    requires forall i :: 0 <= i < |codes| ==> |codes[i]| == 3
    ensures |codes| == 0 ==> DashJoin(codes) == ""
    ensures |codes| > 0 ==> |DashJoin(codes)| == 4 * |codes| - 1
    ensures forall i :: 0 <= i < |codes| ==> DashJoin(codes)[4 * i..4 * i + 3] == codes[i]
    ensures forall i :: 0 < i < |codes| ==> DashJoin(codes)[4 * i - 1] == '-'
  {
    if |codes| > 1 {
      var init := codes[..|codes| - 1];
      DashJoinLayout(init);
      var j := DashJoin(init);
      var last := codes[|codes| - 1];
      assert DashJoin(codes) == j + "-" + last;
      forall i | 0 <= i < |codes|
        ensures DashJoin(codes)[4 * i..4 * i + 3] == codes[i]
      {
        if i < |codes| - 1 {
          assert DashJoin(codes)[4 * i..4 * i + 3] == j[4 * i..4 * i + 3];
          assert init[i] == codes[i];
        } else {
          assert DashJoin(codes)[4 * i..4 * i + 3] == last;
        }
      }
      forall i | 0 < i < |codes|
        ensures DashJoin(codes)[4 * i - 1] == '-'
      {
        if i < |codes| - 1 {
          assert DashJoin(codes)[4 * i - 1] == j[4 * i - 1];
        }
      }
    }
  }
}
